=== FILE: README.md ===
# LLM code deployment service — a Dafny model

The service receives a deployment request over HTTP at `/api/deploy`. It
first validates the request and checks a shared student secret. It then asks
a language model for a single-page web app, falling back to a fixed template
when no backend can answer. It publishes the page to a fresh GitHub
repository with GitHub Pages enabled. Finally it notifies an evaluation
endpoint, retrying with exponential back-off.

The model follows the program's modules:

- `Base`: option and result types and a byte type.
- `PyStr`: the Python string operations the code relies on. It covers
  `find` and its -1, slicing with bound normalisation, `strip`, `join`,
  `in` and `str(int)`.
- `Json`: JSON values with Python truthiness, type names and `str()`.
- `Validator`: `validator.py`, i.e. request validation and the secret
  comparison.
- `CodeGenerator`: `code_generator.py`. It covers attachment decoding, the
  prompt, the parsing of the model's reply, the template and the choice of
  backend.
- `GithubManager`: `github_manager.py`. It covers repository naming, the
  description, the pushed files, the README and licence, the Pages URL and
  the whole publishing step.
- `Evaluator`: `evaluator.py`, i.e. the notification loop and the response
  check.
- `App`: `app.py`, the `/api/deploy` handler from admission to the final
  HTTP answer.

Every external effect is a parameter. These are the outcome of
`request.get_json()` (a parsed value or the exception's text), the language
model's reply (`aipipe`), base64 and UTF-8 decoding (`Codecs`), GitHub repository creation
and git push (`Hub`), the clock (`Clock`), Python's `str.isalnum` and the
evaluation endpoint's answer to its k-th POST (`respond`). Exceptions that
the source lets propagate become `Err` values carrying the exception text,
and `app.py`'s catch-all turns them into HTTP 500.

## Model

| member | source | states |
|---|---|---|
| PyStr.Find | code_generator.py:260-261 | `s.find(sub, start)` is the first index at or after `start` where `sub` occurs, and -1 exactly when there is none |
| PyStr.FindAgreesWithContains | code_generator.py:259-260 | `find` answers a non-negative index exactly when `sub in s` holds |
| PyStr.Slice | code_generator.py:262 | Python slicing with normalised bounds; an in-range slice is the Dafny subsequence, and an empty or backwards range gives the empty string |
| PyStr.SliceToLast | code_generator.py:261-262 | a slice ending at -1 (a missed `find`) stops one character before the end |
| PyStr.Strip | code_generator.py:262 | `strip()` keeps a contiguous middle part of the string, removes only whitespace around it, and leaves no whitespace at either end |
| PyStr.StripBy | github_manager.py:98 | `strip(chars)` keeps a contiguous middle part whose ends are not stripped, and only stripped characters are removed around it |
| PyStr.JoinContainsParts | validator.py:24 | every joined part occurs in the result of `sep.join(parts)` |
| PyStr.AfterLast | validator.py:28 | `split('@')[-1]` is the suffix after the last `@` and contains no `@` |
| PyStr.TakeUntil | code_generator.py:32 | `split(c)[0]` is the prefix before the first `c` and contains no `c` |
| Validator.MissingFrom | validator.py:21 | the missing required fields are exactly the listed fields absent from the payload, kept in list order |
| Validator.MissingFields | validator.py:18-23 | no field is missing exactly when all seven required fields are present |
| Validator.CheckEmail | validator.py:26-29 | a string email passes exactly when it has an `@` and a `.` after its last `@`; anything else is rejected or raises |
| Validator.EmailCheckAgrees | validator.py:28 | the source's test `'@' in s and '.' in s.split('@')[-1]` agrees with the positional definition of a well-formed email |
| Validator.CheckAttachments | validator.py:61-69 | the loop passes exactly when every attachment is a dict with `name` and `url`; otherwise it reports the first bad index with the matching message |
| Validator.CheckRequiredValues | validator.py:26-54 | the email, round, task, nonce, brief and URL checks pass exactly when every value is well-formed; only a non-string email raises |
| Validator.CheckOptionalFields | validator.py:56-69 | the optional `checks` and `attachments` checks pass exactly when the fields are lists of the required shape; a `checks` that is not a list gives "Checks must be a list", and then an `attachments` that is not a list gives "Attachments must be a list" |
| Validator.ValidateRequest | validator.py:8-72 | missing fields are named in order; the verdict is valid exactly when every check holds; a raise comes only from a non-string email |
| Validator.MissingMessageNamesEach | validator.py:21-24 | every absent required field is named in the rejection message |
| Validator.EarlierCheckDecides | validator.py:26-63 | the checks run in source order (email, round, task, nonce, brief, evaluation URL, checks, attachments), and the first failing one decides the message |
| Validator.VerifySecret | validator.py:74-97 | the secret is accepted exactly when one is configured and the provided value is that string |
| Validator.UnconfiguredSecretDenies | validator.py:85-90 | with no configured secret, every request is refused |
| CodeGenerator.MimeType | code_generator.py:32 | the MIME type is the part of the header after `data:` up to the first `:` or `;` (or the end), and contains neither |
| CodeGenerator.DecodeAttachment | code_generator.py:17-48 | on a dict: a decoded attachment comes from a dict with a name and a `data:` URL containing a comma; its MIME type is read from the header before the first comma and its content is the base64-decoded payload, UTF-8-decoded exactly for the text MIME types; such a URL gives nothing exactly when base64 decoding fails or a text type's UTF-8 decoding fails |
| CodeGenerator.DecodeDataUri | code_generator.py:28-45 | a well-formed base64 data URI decodes to its name, MIME type and bytes, or to text when the type is textual |
| CodeGenerator.DataUriComma | code_generator.py:31 | the header ends at the first comma of the URL |
| CodeGenerator.DataUriMime | code_generator.py:32 | the MIME type of `data:<mime>;base64` is `<mime>` |
| CodeGenerator.DecodeAll | code_generator.py:64-69 | for a list of dicts, the decoded list holds exactly the attachments that decode, and no others; one attachment gives its decoding or nothing |
| CodeGenerator.DecodeAllAppend | code_generator.py:64-69 | decoding keeps list order: the decodings of a concatenation are those of each part, one after the other |
| CodeGenerator.DecodeLoop | code_generator.py:46-69 | the loop succeeds exactly when every attachment is a dict, and then keeps the decodings; otherwise the first non-dict raises `'<type>' object has no attribute 'get'` from the handler of `decode_attachment` |
| CodeGenerator.Preview | code_generator.py:104-105 | a preview exists exactly for text under 1000 characters; it is the first at most 500 characters of the text |
| CodeGenerator.CheckBullets | code_generator.py:107-108 | each check becomes `- ` followed by its `str()`, one per check, in order |
| CodeGenerator.ChecksInfo | code_generator.py:107-109 | the checks section is empty exactly when there are no checks, and otherwise lists every check |
| CodeGenerator.AttachmentEntry | code_generator.py:102-105 | an attachment's entry starts with the line naming it and its MIME type, and has the content line exactly when there is a preview |
| CodeGenerator.AttachmentsInfo | code_generator.py:99-105 | the attachments section is empty exactly when nothing decoded, and otherwise contains every attachment's entry |
| CodeGenerator.BuildGenerationPrompt | code_generator.py:96-152 | the prompt contains the brief, the entry of every decoded attachment and a bullet for every check |
| CodeGenerator.ExtractHtml | code_generator.py:259-269 | a non-empty page is only extracted from a reply containing an html fence or a doctype |
| CodeGenerator.FencedHtmlExtracted | code_generator.py:259-262 | the body of a closed html fence is extracted, stripped, when the html fence first occurs after the text before it and the closing fence first occurs after the body (backticks elsewhere allowed) |
| CodeGenerator.UnclosedFenceDropsLastChar | code_generator.py:260-262 | an unclosed html fence (no earlier html fence, no backtick fence after it) makes `find` answer -1, so the page loses the reply's last character |
| CodeGenerator.DoctypeSpanExtracted | code_generator.py:263-267 | without an html fence, the page runs from the first `<!DOCTYPE html>` through the first `</html>` after it |
| CodeGenerator.UnclosedDoctypeTruncated | code_generator.py:264-267 | with no `</html>`, the end index is `-1 + 7`: a first doctype at index 0 gives its first six characters `<!DOCT`, and one at index 6 or later gives nothing |
| CodeGenerator.ExtractReadme | code_generator.py:271-277 | a README is only extracted when the reply mentions README or readme and has a markdown fence |
| CodeGenerator.MarkdownReadmeExtracted | code_generator.py:271-277 | a closed markdown fence's body is the README when the reply mentions a README, whatever backticks come before the fence or inside the body as long as neither holds the fence that ends it |
| CodeGenerator.MdReadmeExtracted | code_generator.py:271-277 | with no markdown fence anywhere, a closed md fence's body is the README when the reply mentions a README |
| CodeGenerator.MarkdownPreferredOverMd | code_generator.py:273-277 | when an md fence comes before a markdown fence, the markdown block is the README |
| CodeGenerator.NoMentionNoReadme | code_generator.py:271 | a reply that never mentions README yields an empty README |
| CodeGenerator.ParseLlmResponse | code_generator.py:247-282 | the result always has the keys `index.html` and `README.md`, each non-empty only under the conditions above |
| CodeGenerator.RequirementLines | code_generator.py:354 | the bullets succeed exactly when every check is a string; otherwise the first non-string raises the concatenation error |
| CodeGenerator.TemplateCode | code_generator.py:284-373 | the template page and README embed the brief, and the README lists every check or says none were given; it raises exactly on a non-string check |
| CodeGenerator.TemplateReadmeLists | code_generator.py:348-355 | the template README lists every check, or the no-checks sentence when there are none |
| CodeGenerator.ChooseBackend | code_generator.py:75-87 | the AI Pipeline backend is chosen whenever its key is set, Anthropic only when it is not and Anthropic's is, OpenAI only when neither is, and none when no key is set |
| CodeGenerator.GenerateAppCode | code_generator.py:50-94 | with an AI Pipeline key and a successful call, the files are the parsed reply; the template is used exactly when there is no such key or the call fails; a non-dict attachment raises the `AttributeError` of `decode_attachment` before any backend runs, and otherwise only the template can raise |
| CodeGenerator.GenerateFromPrompt | code_generator.py:74-94 | once the prompt is built: the chosen backend is recorded; an AI Pipeline key and a successful call give the parsed reply; the template is used exactly when there is no such key or the call fails, and only the template can raise |
| CodeGenerator.TemplateWithoutAiPipeKey | code_generator.py:75-89 | without an AI Pipeline key, the other clients fail with `NameError`, so the template is used |
| CodeGenerator.FailureFallsBackToTemplate | code_generator.py:91-94 | with dict attachments, a failed backend call falls back to the template |
| GithubManager.NameChars | github_manager.py:94-95 | after the rewrite, only alphanumerics and hyphens remain, and the result is never longer |
| GithubManager.NameCharsOne | github_manager.py:94-95 | one character: a space or an underscore becomes `-`, an alphanumeric or `-` is kept, anything else is dropped |
| GithubManager.NameCharsAppend | github_manager.py:95 | the rewrite works character by character: the rewrite of a concatenation is the concatenation of the rewrites |
| GithubManager.NameCharsAllHyphens | github_manager.py:94-95 | the rewritten name is all hyphens exactly when the task has no alphanumeric character |
| GithubManager.CutNameShape | github_manager.py:94-102 | the stripped and cut name has at most 100 characters of the allowed kinds; it is empty exactly when the task has no alphanumeric, and otherwise starts with one; a trailing hyphen means it was cut at 100 |
| GithubManager.SanitizeRepoName | github_manager.py:83-108 | the name is 1 to 100 allowed characters, never starts with a hyphen, and falls back to `task-<stamp>` exactly when the task has no alphanumeric |
| GithubManager.SanitizeIdempotent | github_manager.py:83-108 | sanitising a name that does not end in a hyphen gives it back unchanged |
| GithubManager.TrailingHyphenNotIdempotent | github_manager.py:98-102 | cutting after stripping can leave a trailing hyphen, which a second pass removes |
| GithubManager.HyphensNotCollapsed | github_manager.py:94 | consecutive spaces become consecutive hyphens |
| GithubManager.SanitizeClean | github_manager.py:94-108 | a task that is already a clean name of at most 100 characters is kept as it is |
| GithubManager.ClockAppExample | github_manager.py:94-98 | `Clock App!` becomes `Clock-App` |
| GithubManager.RepoDescription | github_manager.py:53 | the description is the fixed lead followed by the first 100 characters of the brief, verbatim |
| GithubManager.ControlCharactersKept | github_manager.py:53 | control characters in the brief reach the description unchanged |
| GithubManager.ReadmeChecks | github_manager.py:271 | the checks text is the no-checks sentence exactly when there are no checks |
| GithubManager.ReadmeListsChecks | github_manager.py:260-340 | the generated README lists every check as `- <check>` |
| GithubManager.GenerateReadme | github_manager.py:260-340 | the generated README contains the brief and the checks text |
| GithubManager.MitLicense | github_manager.py:342-371 | the licence starts with the MIT header and names the current year |
| GithubManager.FilesToPush | github_manager.py:149-165 | `index.html` is written only when present and non-empty; the README is the app's, or the generated one when absent; the licence is always written |
| GithubManager.EmptyReadmeWrittenAsIs | github_manager.py:156 | an empty README from the app is written as is, not replaced |
| GithubManager.PagesUrl | github_manager.py:238 | the Pages URL starts with `https://<username>.github.io/`, contains the repository name and ends in `/` |
| GithubManager.PagesUrlInjective | github_manager.py:238 | under one username, different repositories get different Pages URLs |
| GithubManager.EnableGithubPages | github_manager.py:206-258 | the Pages step returns an https URL naming the repository, whatever the API answers |
| GithubManager.PagesUrlIgnoresReply | github_manager.py:240-258 | every status, and every exception, yields the same URL |
| GithubManager.CreateAndDeployRepo | github_manager.py:20-81 | missing token or username raises first; a failed creation, or a failed push after it, gives that error's message; publishing succeeds exactly when creation and push succeed; the result carries the repository URL, the stripped commit SHA and the Pages URL |
| Evaluator.NotificationBody | evaluator.py:31-39 | the POST body has exactly the seven keys, each carrying its argument |
| Evaluator.Classify | evaluator.py:56-113 | an attempt ends the loop exactly on a 200 whose body is empty (answering `{}`) or parses (answering the parsed value); any other outcome is retried with an error whose text `RetryErrorNamesCause` pins |
| Evaluator.RetryErrorNamesCause | evaluator.py:74-113 | each failure gives its own text: a non-200 status gives the status and body, a timeout the timeout text, a `requests` failure (including a 200 body that is not JSON) `Request failed:` with its message, any other exception `Unexpected error:` with its message; never the unreachable fallback message |
| Evaluator.BackoffTotal | evaluator.py:12 | the k-th delay is 2^k seconds, and the first n delays add up to 2^n - 1 |
| Evaluator.NotifyEvaluationApi | evaluator.py:14-118 | 1 to 5 identical POSTs; success exactly when the last attempt succeeds after failed ones; failure reports the fifth attempt's error after five tries; the sleeps are the first `attempts - 1` delays, at most 15 seconds in total |
| Evaluator.VerifyEvaluationResponse | evaluator.py:120-139 | a response is accepted exactly when its status is 200 |
| Evaluator.ResponseBodyIrrelevant | evaluator.py:133-139 | the verdict does not depend on whether the body parses |
| App.Receive | app.py:42-44 | a request body that Flask cannot parse as JSON raises inside the `try` and is answered 500 with the exception's text; a parsed value goes on to admission |
| App.Admit | app.py:46-73 | an empty payload gives 400; a non-dict gives 500 on `.get`; an invalid payload gives 400 with its message; a raising check gives 500; a bad secret gives 403; otherwise every field is taken from the payload, with list defaults for checks and attachments |
| App.InvalidBeforeSecret | app.py:52-60 | validation is decided before the secret is looked at |
| App.WrongSecretForbidden | app.py:58-60 | a valid payload with a wrong or unconfigured secret gets 403 |
| App.Deploy | app.py:36-125 | rejections answer without running a stage; otherwise generation, publication and notification run in order; an exception gives 500 with the stages so far; 200 exactly when all three ran |
| App.RunStages | app.py:75-118 | a generation error stops before publishing and a publishing error stops before notifying, each with 500 |
| App.NotifyStage | app.py:88-118 | every POST carries the request's email, task, round and nonce with the repository URL, commit SHA and Pages URL; the answer is 200 either way: success when some attempt lands, otherwise partial success with the last attempt's error |

## Left out

- The Flask application object, routing, the health endpoint at `app.py:27-34` and the server start-up at `app.py:127-136` are framework plumbing.
- `request.get_json()` itself is Flask's: the model receives its outcome, either the parsed value or the text of the exception it raises (for a request that is not JSON or a body that does not parse). Which text Werkzeug puts in that exception is not modelled.
- GithubManager.NameChars: its own contract states only the output alphabet and the length; the per-character rewrite is stated by `GithubManager.NameCharsOne`, and `GithubManager.NameCharsAppend` extends it to whole strings.
- PyGithub, git subprocesses, the temporary directory and `requests` are oracles. `Hub.createRepo` stands for `user.create_repo`; `Hub.push` stands for the clone, write, commit and push sequence and returns `git rev-parse HEAD`'s standard output.
- The token inside the clone URL (`github_manager.py:130`) and the git commands themselves are left out for the same reason.
- The Anthropic and OpenAI client bodies are left out. Their modules are never imported, so calling them raises `NameError`, and the model says exactly that. The AI Pipeline client is the oracle `aipipe`; its HTTP status check and response indexing are folded into that oracle's `Err`.
- Base64 and UTF-8 decoding are the oracle `Codecs`. `datetime.utcnow()` is `Clock`. `time.sleep` becomes the returned list of delays. Logging is left out.
- The long fixed texts are held as opaque constants: the prompt's instructions, the template's HTML and CSS, the README's usage sections and the MIT licence body. Only the places where inputs are spliced in are modelled.
- Json.Str: exact for `None`, booleans, integers and strings. Floats, lists and dicts get fixed stand-in text, because Python's `repr` of those is not modelled.
- Json.JValue: objects are maps, so the key order of a JSON object is not modelled; no modelled step depends on it.
- GithubManager.SanitizeRepoName: `str.isalnum` is a parameter that must agree with ASCII on ASCII characters. Its Unicode behaviour is not modelled.
- The `sanitize_description` helper that `test_control_chars_fix.py` expects is not in `github_manager.py`. The description takes the raw brief, and `GithubManager.ControlCharactersKept` states that consequence.
- Evaluator.Classify: a 200 reply whose body is not JSON is modelled as the `requests` exception branch ("Request failed: ..."), which is how current `requests` classifies the JSON error. Older `requests` versions raise a bare `ValueError`, which would land in "Unexpected error: ...".
- `test_api.py` is a manual client script and is not part of this model.

=== FILE: app.dfy ===
/** The `/api/deploy` endpoint: admission (payload present, valid, secret
    right), then generation, publication and notification in that order, and
    the mapping of each outcome to an HTTP status and JSON body. Every external
    service is an oracle held in `World`. */
module App {
  import opened Base
  import opened Json
  import Validator
  import CodeGenerator
  import GithubManager
  import Evaluator

  const NoPayload := "No JSON payload provided"
  const BadSecret := "Invalid secret"

  /** The JSON bodies the endpoint answers with. `InternalError` is the
      `{'error': 'Internal server error', 'message': str(e)}` of the catch-all
      handler. */
  datatype Body =
    | ErrorBody(error: string)
    | InternalError(message: string)
    | Deployed(repoUrl: string, pagesUrl: string, commitSha: string)
    | PartiallyDeployed(repoUrl: string, pagesUrl: string, error: string)

  datatype Reply = Reply(code: int, body: Body)

  /** The stages that ran, in order. */
  datatype Stage = Generate | Publish | Notify

  /** The environment: the student secret, the LLM keys and the GitHub
      settings. */
  datatype Config = Config(studentSecret: string, keys: CodeGenerator.ApiKeys, github: GithubManager.Config)

  /** The oracles: attachment decoders, the AI Pipeline backend, GitHub, the
      clock, the `isalnum` classifier and the evaluation endpoint, which says
      how the `k`-th POST to a URL went. */
  datatype World = World(
    codecs: CodeGenerator.Codecs,
    aipipe: string -> Result<string>,
    hub: GithubManager.Hub,
    clock: GithubManager.Clock,
    isAlnum: char -> bool,
    respond: (string, nat) -> Evaluator.Attempt)

  predicate WorldOk(w: World) {
    GithubManager.AgreesOnAscii(w.isAlnum) && GithubManager.IsStamp(w.clock.nameStamp)
  }

  /** The fields `deploy` reads from an admitted payload; `checks` and
      `attachments` default to empty lists. */
  datatype Request = Request(
    email: string, task: string, round: JValue, nonce: string, brief: string,
    checks: seq<JValue>, evaluationUrl: string, attachments: seq<JValue>)

  datatype Admission = Rejected(reply: Reply) | Admitted(request: Request)

  /** Everything `deploy` does before the first stage. */
  function Admit(payload: JValue, secret: string): (r: Admission)
    ensures !Truthy(payload) ==> r == Rejected(Reply(400, ErrorBody(NoPayload)))
    ensures Truthy(payload) && !payload.JObj? ==>
      r == Rejected(Reply(500, InternalError(NoAttribute(payload, "get"))))
    ensures payload.JObj? && Truthy(payload) ==>
      var v := Validator.ValidateRequest(payload.fields);
      && (v.Invalid? ==> r == Rejected(Reply(400, ErrorBody(v.message))))
      && (v.Raises? ==> r == Rejected(Reply(500, InternalError(v.message))))
      && (v.Valid? ==> (r.Admitted? <==> Validator.VerifySecret(payload.fields["secret"], secret)))
      && (v.Valid? && r.Rejected? ==> r.reply == Reply(403, ErrorBody(BadSecret)))
    ensures r.Admitted? ==>
      && payload.JObj? && Validator.WellFormed(payload.fields)
      && secret != "" && payload.fields["secret"] == JStr(secret)
      && r.request.email == payload.fields["email"].s
      && r.request.nonce == payload.fields["nonce"].s
      && r.request.evaluationUrl == payload.fields["evaluation_url"].s
      && r.request.brief == payload.fields["brief"].s
      && r.request.task == payload.fields["task"].s
      && r.request.round == payload.fields["round"]
      && r.request.checks == (if "checks" in payload.fields then payload.fields["checks"].items else [])
      && r.request.attachments == (if "attachments" in payload.fields then payload.fields["attachments"].items else [])
  {
    if !Truthy(payload) then Rejected(Reply(400, ErrorBody(NoPayload)))
    else if !payload.JObj? then
      Rejected(Reply(500, InternalError(NoAttribute(payload, "get"))))
    else
      var p := payload.fields;
      match Validator.ValidateRequest(p)
      case Invalid(m) => Rejected(Reply(400, ErrorBody(m)))
      case Raises(m) => Rejected(Reply(500, InternalError(m)))
      case Valid =>
        if !Validator.VerifySecret(p["secret"], secret) then Rejected(Reply(403, ErrorBody(BadSecret)))
        else
          Admitted(Request(
            p["email"].s, p["task"].s, p["round"], p["nonce"].s, p["brief"].s,
            if "checks" in p then p["checks"].items else [],
            p["evaluation_url"].s,
            if "attachments" in p then p["attachments"].items else []))
  }

  /** `request.get_json()` runs inside `deploy`'s `try`: when Flask cannot
      give a JSON value (a request that is not JSON, or a body that does not
      parse), the exception it raises reaches the catch-all and is answered
      500 with its text; otherwise the parsed value is admitted as above. */
  function Receive(body: Result<JValue>, secret: string): (r: Admission)
    ensures body.Err? ==> r == Rejected(Reply(500, InternalError(body.error)))
    ensures body.Ok? ==> r == Admit(body.value, secret)
    ensures r.Admitted? ==> body.Ok? && body.value.JObj? && Validator.WellFormed(body.value.fields)
  {
    match body
    case Err(e) => Rejected(Reply(500, InternalError(e)))
    case Ok(payload) => Admit(payload, secret)
  }

  /** Validation runs before the secret check: a malformed payload is
      answered 400 whatever secret it carries. */
  lemma {:induction false} InvalidBeforeSecret(p: Validator.Payload, secret: string)
    requires |p| > 0 && Validator.ValidateRequest(p).Invalid?
    ensures Admit(JObj(p), secret).reply.code == 400
  {
  }

  /** A well-formed payload with the wrong secret is answered 403, and an
      unconfigured secret turns every well-formed payload away. */
  lemma {:induction false} WrongSecretForbidden(p: Validator.Payload, secret: string)
    requires |p| > 0 && Validator.WellFormed(p)
    requires secret == "" || p["secret"] != JStr(secret)
    ensures Admit(JObj(p), secret) == Rejected(Reply(403, ErrorBody(BadSecret)))
  {
  }

  /** The evaluation endpoint's answers for one URL. */
  function Responder(world: World, url: string): nat -> Evaluator.Attempt {
    (k: nat) => world.respond(url, k)
  }

  /** Some attempt among the five reaches the evaluation service. */
  predicate NotificationLands(world: World, url: string) {
    exists k: nat | k < Evaluator.MaxRetries :: Evaluator.Classify(world.respond(url, k)).Done?
  }

  /** What the three stages answer for an admitted request: the generator's
      exception and the publisher's exception end the request with 500 and
      the stages so far; otherwise all three stages run and the answer is
      200, `success` exactly when a notification attempt lands. */
  ghost predicate StagesOutcome(req: Request, config: Config, world: World, reply: Reply, stages: seq<Stage>)
    requires WorldOk(world)
  {
    var g := CodeGenerator.GenerateAppCode(req.brief, req.checks, req.attachments, config.keys, world.codecs, world.aipipe);
    if g.Err? then stages == [Generate] && reply == Reply(500, InternalError(g.error))
    else
      var pub := GithubManager.CreateAndDeployRepo(
        req.task, g.value.files, req.brief, req.checks, config.github, world.hub, world.clock, world.isAlnum);
      if pub.Err? then stages == [Generate, Publish] && reply == Reply(500, InternalError(pub.error))
      else
        && stages == [Generate, Publish, Notify]
        && reply.code == 200
        && (if NotificationLands(world, req.evaluationUrl)
            then reply.body == Deployed(pub.value.repoUrl, pub.value.pagesUrl, pub.value.commitSha)
            else reply.body == PartiallyDeployed(pub.value.repoUrl, pub.value.pagesUrl,
                   Evaluator.Classify(world.respond(req.evaluationUrl, Evaluator.MaxRetries - 1)).error))
  }

  /** `deploy`: admission, then generation, publication and notification.
      An exception from generation or publication ends the request with 500
      before notification; a failed notification still answers 200. */
  method Deploy(body: Result<JValue>, config: Config, world: World) returns (reply: Reply, stages: seq<Stage>)
    requires WorldOk(world)
    ensures Receive(body, config.studentSecret).Rejected? ==>
      reply == Receive(body, config.studentSecret).reply && stages == []
    ensures Receive(body, config.studentSecret).Admitted? ==>
      StagesOutcome(Receive(body, config.studentSecret).request, config, world, reply, stages)
    ensures stages == [] || stages[0] == Generate
    ensures reply.code == 200 <==> stages == [Generate, Publish, Notify]
  {
    var admission := Receive(body, config.studentSecret);
    if admission.Rejected? {
      reply, stages := admission.reply, [];
      return;
    }
    reply, stages := RunStages(admission.request, config, world);
  }

  /** Generation, publication and notification for an admitted request. */
  method RunStages(req: Request, config: Config, world: World) returns (reply: Reply, stages: seq<Stage>)
    requires WorldOk(world)
    ensures StagesOutcome(req, config, world, reply, stages)
  {
    var generated := CodeGenerator.GenerateAppCode(
      req.brief, req.checks, req.attachments, config.keys, world.codecs, world.aipipe);
    if generated.Err? {
      reply, stages := Reply(500, InternalError(generated.error)), [Generate];
      return;
    }
    var published := GithubManager.CreateAndDeployRepo(
      req.task, generated.value.files, req.brief, req.checks, config.github, world.hub, world.clock, world.isAlnum);
    if published.Err? {
      reply, stages := Reply(500, InternalError(published.error)), [Generate, Publish];
      return;
    }
    stages := [Generate, Publish, Notify];
    var posted;
    reply, posted := NotifyStage(req, published.value, world);
  }

  /** The notification and the final answer: every attempt POSTs the
      request's email, task, round and nonce with the published URLs and
      SHA; the answer is 200 either way, with the commit SHA only on success
      and the last attempt's error only on failure. */
  method NotifyStage(req: Request, repo: GithubManager.Published, world: World)
    returns (reply: Reply, posted: seq<JValue>)
    ensures 1 <= |posted| <= Evaluator.MaxRetries
    ensures forall k | 0 <= k < |posted| :: posted[k] == Evaluator.NotificationBody(
      req.email, req.task, req.round, req.nonce, repo.repoUrl, repo.commitSha, repo.pagesUrl)
    ensures reply.code == 200
    ensures NotificationLands(world, req.evaluationUrl) ==>
      reply.body == Deployed(repo.repoUrl, repo.pagesUrl, repo.commitSha)
    ensures !NotificationLands(world, req.evaluationUrl) ==>
      reply.body == PartiallyDeployed(repo.repoUrl, repo.pagesUrl,
        Evaluator.Classify(world.respond(req.evaluationUrl, Evaluator.MaxRetries - 1)).error)
  {
    var body := Evaluator.NotificationBody(
      req.email, req.task, req.round, req.nonce, repo.repoUrl, repo.commitSha, repo.pagesUrl);
    var respond := Responder(world, req.evaluationUrl);
    var result, posts, _, attempts := Evaluator.NotifyEvaluationApi(body, respond);
    posted := posts;
    match result
    case Notified(_) =>
      assert respond(attempts - 1) == world.respond(req.evaluationUrl, attempts - 1);
      reply := Reply(200, Deployed(repo.repoUrl, repo.pagesUrl, repo.commitSha));
    case NotifyFailed(e) =>
      forall k: nat | k < Evaluator.MaxRetries
        ensures !Evaluator.Classify(world.respond(req.evaluationUrl, k)).Done?
      {
        assert respond(k) == world.respond(req.evaluationUrl, k);
      }
      reply := Reply(200, PartiallyDeployed(repo.repoUrl, repo.pagesUrl, e));
  }
}

=== FILE: base.dfy ===
/** Failure-carrying values shared by every component of the deployment pipeline.
    A Python exception is modelled as `Err(message)`, where `message` is what
    `str(e)` would give. */
module Base {

  datatype Option<+T> = None | Some(value: T)

  datatype Result<+T> = Ok(value: T) | Err(error: string)

  /** An 8-bit byte, as produced by base64 decoding. */
  newtype byte = x: int | 0 <= x < 256
}

=== FILE: codegen.dfy ===
/** Code generation: decoding data-URI attachments, building the prompt,
    choosing one generation backend by fixed priority, parsing the model's
    reply into `index.html` and `README.md`, and falling back to a fixed
    template whenever no backend is configured or the chosen one fails. */
module CodeGenerator {
  import opened Base
  import opened PyStr
  import opened Json

  const IndexHtml := "index.html"
  const ReadmeMd := "README.md"

  /** Generated files, keyed by file name. */
  type Files = map<string, string>

  // ---------------------------------------------------------------------------
  // Attachments

  datatype Content = Text(text: string) | Binary(bytes: seq<byte>)

  datatype Decoded = Decoded(name: JValue, mime: string, content: Content)

  /** Base64 and UTF-8 decoding; `None` stands for the exception they raise. */
  datatype Codecs = Codecs(base64: string -> Option<seq<byte>>, utf8: seq<byte> -> Option<string>)

  /** `mime_type.startswith('text/') or mime_type in [json, javascript]`. */
  predicate IsTextMime(mime: string) {
    StartsWith(mime, "text/") || mime == "application/json" || mime == "application/javascript"
  }

  /** `header.split(':')[1].split(';')[0]` for a header that starts with
      `data:`: the text after the first `:` up to the next `:` or `;`. */
  function MimeType(header: string): (r: string)
    requires StartsWith(header, "data:")
    ensures ':' !in r && ';' !in r
    ensures StartsWith(header[5..], r)
    ensures 5 + |r| < |header| ==> header[5 + |r|] == ':' || header[5 + |r|] == ';'
  {
    var piece := TakeUntil(header[5..], ':');
    var r := TakeUntil(piece, ';');
    assert header[5..][..|r|] == piece[..|r|];
    r
  }

  /** An attachment whose `url` is a string of the form `data:<header>,<payload>`
      and which has a `name`: the only attachments that can decode. */
  predicate IsDataAttachment(att: JValue) {
    && att.JObj? && "url" in att.fields && "name" in att.fields
    && att.fields["url"].JStr? && StartsWith(att.fields["url"].s, "data:")
    && Contains(att.fields["url"].s, ",")
  }

  /** `decode_attachment` on a dict: `None` for a URL that is not a string
      starting with `data:`, for a URL without a comma, and whenever decoding
      fails; otherwise the name, the MIME type of the header before the first
      comma, and the base64-decoded payload after it, further decoded as UTF-8
      for a textual type. A non-dict raises; `DecodeLoop` models that. */
  function DecodeAttachment(att: JValue, codecs: Codecs): (r: Option<Decoded>)
    requires att.JObj?
    ensures r.Some? ==> IsDataAttachment(att) && r.value.name == att.fields["name"]
    ensures r.Some? ==> (r.value.content.Text? <==> IsTextMime(r.value.mime))
    ensures r.Some? ==>
      var url := att.fields["url"].s;
      var comma := Find(url, ",", 0);
      && 5 <= comma
      && StartsWith(url[..comma], "data:")
      && r.value.mime == MimeType(url[..comma])
      && codecs.base64(url[comma + 1..]).Some?
      && (r.value.content.Binary? ==> r.value.content.bytes == codecs.base64(url[comma + 1..]).value)
      && (r.value.content.Text? ==> codecs.utf8(codecs.base64(url[comma + 1..]).value) == Some(r.value.content.text))
    ensures r.None? && IsDataAttachment(att) ==>
      var url := att.fields["url"].s;
      var comma := Find(url, ",", 0);
      && 5 <= comma
      && StartsWith(url[..comma], "data:")
      && var bytes := codecs.base64(url[comma + 1..]);
         bytes.None? || (IsTextMime(MimeType(url[..comma])) && codecs.utf8(bytes.value).None?)
  {
    if "url" !in att.fields || !att.fields["url"].JStr? then None
    else
      var url := att.fields["url"].s;
      if !StartsWith(url, "data:") then None
      else
        FindAgreesWithContains(url, ",");
        var comma := Find(url, ",", 0);
        if comma < 0 then None
        else
          assert comma >= 5 by {
            assert url[..5] == "data:";
            assert forall i | 0 <= i < 5 :: url[i] != ',';
            OccursStartsWith(url, ",", comma);
          }
          var header := url[..comma];
          assert header[..5] == url[..5];
          var mime := MimeType(header);
          match codecs.base64(url[comma + 1..])
          case None => None
          case Some(bytes) =>
            var content :=
              if !IsTextMime(mime) then Some(Binary(bytes))
              else match codecs.utf8(bytes)
                case None => None
                case Some(t) => Some(Text(t));
            if content.None? || "name" !in att.fields then None
            else Some(Decoded(att.fields["name"], mime, content.value))
  }

  /** A data URI `data:<mime>;base64,<payload>` whose MIME type has no `:`,
      `;` or `,` decodes to that MIME type and the decoded payload, as text
      exactly when the type is textual. */
  lemma {:induction false} DecodeDataUri(name: JValue, mime: string, payload: string, codecs: Codecs, bytes: seq<byte>)
    requires ':' !in mime && ';' !in mime && ',' !in mime
    requires codecs.base64(payload) == Some(bytes)
    requires IsTextMime(mime) ==> codecs.utf8(bytes).Some?
    ensures DecodeAttachment(JObj(map["name" := name, "url" := JStr("data:" + mime + ";base64," + payload)]), codecs)
      == Some(Decoded(name, mime,
           if IsTextMime(mime) then Text(codecs.utf8(bytes).value) else Binary(bytes)))
  {
    var header := "data:" + mime + ";base64";
    var url := "data:" + mime + ";base64," + payload;
    DataUriComma(mime, payload);
    assert url[..|header|] == header;
    assert url[|header| + 1..] == payload;
    DataUriMime(mime);
    assert StartsWith(url, "data:");
  }

  lemma {:induction false} DataUriComma(mime: string, payload: string)
    requires ',' !in mime
    ensures Find("data:" + mime + ";base64," + payload, ",", 0) == |"data:" + mime + ";base64"|
  {
    var header := "data:" + mime + ";base64";
    var url := "data:" + mime + ";base64," + payload;
    assert url == header + "," + payload;
    assert url[|header|..|header| + 1] == ",";
    forall i | 0 <= i < |header| ensures !OccursAt(url, ",", i) {
      assert url[i] == header[i];
      if i >= 5 && i < 5 + |mime| { assert header[i] == mime[i - 5]; }
      Mismatch(url, ",", i, 0);
    }
    FindIsFirst(url, ",", 0, |header|);
  }

  lemma {:induction false} DataUriMime(mime: string)
    requires ':' !in mime && ';' !in mime
    ensures MimeType("data:" + mime + ";base64") == mime
  {
    var header := "data:" + mime + ";base64";
    assert header[5..] == mime + ";base64";
    TakeUntilPrefix(mime, ";base64", ':');
    TakeUntilPrefix(mime, ";base64", ';');
  }

  /** Splitting at a character that occurs in `b` but not in `a` gives back `a`
      when `b` starts with it. */
  lemma {:induction false} TakeUntilPrefix(a: string, b: string, c: char)
    requires c !in a && (|b| > 0 ==> b[0] == c || c !in b)
    ensures TakeUntil(a + b, c) == a + TakeUntil(b, c)
    ensures |b| > 0 && b[0] == c ==> TakeUntil(a + b, c) == a
  {
    if |a| > 0 {
      assert (a + b)[1..] == a[1..] + b;
      TakeUntilPrefix(a[1..], b, c);
    }
  }

  /** Every attachment is a dict. */
  predicate AllDicts(atts: seq<JValue>) {
    forall i | 0 <= i < |atts| :: atts[i].JObj?
  }

  /** The `if decoded:` filter of `generate_app_code` over dicts: attachments
      that decode, in order. */
  function DecodeAll(atts: seq<JValue>, codecs: Codecs): (r: seq<Decoded>)
    requires AllDicts(atts)
    ensures |r| <= |atts|
    ensures |atts| == 1 ==> r == match DecodeAttachment(atts[0], codecs) case Some(d) => [d] case None => []
    ensures forall d | d in r :: exists a | a in atts :: DecodeAttachment(a, codecs) == Some(d)
    ensures forall a | a in atts && DecodeAttachment(a, codecs).Some? ::
      DecodeAttachment(a, codecs).value in r
  {
    if |atts| == 0 then []
    else
      var rest := DecodeAll(atts[1..], codecs);
      assert forall a | a in atts :: a == atts[0] || a in atts[1..];
      match DecodeAttachment(atts[0], codecs)
      case None => rest
      case Some(d) => [d] + rest
  }

  /** The filter keeps list order: decoding a concatenation decodes each part
      in turn. With the one-attachment case this pins `DecodeAll` down. */
  lemma {:induction false} DecodeAllAppend(xs: seq<JValue>, ys: seq<JValue>, codecs: Codecs)
    requires AllDicts(xs) && AllDicts(ys)
    ensures DecodeAll(xs + ys, codecs) == DecodeAll(xs, codecs) + DecodeAll(ys, codecs)
  {
    if |xs| > 0 {
      var zs := xs + ys;
      AllDictsCons(xs);
      assert zs[0] == xs[0];
      assert zs[1..] == xs[1..] + ys;
      DecodeAllAppend(xs[1..], ys, codecs);
      AllDictsCons(zs);
    } else {
      assert xs + ys == ys;
    }
  }

  /** The attachment loop of `generate_app_code`. On a non-dict,
      `attachment['url']` fails inside the `try` of `decode_attachment`, and
      the handler's `attachment.get` then raises an `AttributeError` that
      nothing catches: the first non-dict ends the loop with that error.
      Otherwise the loop keeps the attachments that decode. */
  function DecodeLoop(atts: seq<JValue>, codecs: Codecs): (r: Result<seq<Decoded>>)
    ensures r.Ok? <==> AllDicts(atts)
    ensures r.Ok? ==> r.value == DecodeAll(atts, codecs)
    ensures r.Err? ==> exists k | 0 <= k < |atts| ::
      && !atts[k].JObj?
      && AllDicts(atts[..k])
      && r.error == NoAttribute(atts[k], "get")
  {
    if |atts| == 0 then Ok([])
    else if !atts[0].JObj? then
      assert AllDicts(atts[..0]);
      Err(NoAttribute(atts[0], "get"))
    else
      AllDictsCons(atts);
      match DecodeLoop(atts[1..], codecs)
      case Err(e) =>
        FirstNonDictLifted(atts, e);
        Err(e)
      case Ok(ds) =>
        match DecodeAttachment(atts[0], codecs)
        case None => Ok(ds)
        case Some(d) => Ok([d] + ds)
  }

  /** A list of dicts is a dict followed by a list of dicts. */
  lemma {:induction false} AllDictsCons(atts: seq<JValue>)
    requires |atts| > 0
    ensures AllDicts(atts) <==> atts[0].JObj? && AllDicts(atts[1..])
  {
    if atts[0].JObj? && AllDicts(atts[1..]) {
      forall i | 0 <= i < |atts| ensures atts[i].JObj? {
        if i > 0 { assert atts[i] == atts[1..][i - 1]; }
      }
    }
  }

  /** The first non-dict of the tail, behind a dict, is the first non-dict
      of the whole list. */
  lemma {:induction false} FirstNonDictLifted(atts: seq<JValue>, e: string)
    requires |atts| > 0 && atts[0].JObj?
    requires exists k | 0 <= k < |atts| - 1 ::
      && !atts[1..][k].JObj?
      && AllDicts(atts[1..][..k])
      && e == NoAttribute(atts[1..][k], "get")
    ensures exists k | 0 <= k < |atts| ::
      && !atts[k].JObj?
      && AllDicts(atts[..k])
      && e == NoAttribute(atts[k], "get")
  {
    var tail := atts[1..];
    var k :| 0 <= k < |atts| - 1 && !tail[k].JObj? && AllDicts(tail[..k]) && e == NoAttribute(tail[k], "get");
    assert atts[k + 1] == tail[k];
    var head := atts[..k + 1];
    forall i | 0 <= i < k + 1 ensures head[i].JObj? {
      if i > 0 { assert head[i] == tail[..k][i - 1]; }
    }
    assert AllDicts(head);
  }

  // ---------------------------------------------------------------------------
  // Prompt

  /** Fixed prompt text before the brief (a stand-in for the instruction
      header). */
  const PromptIntro := "Generate a complete, production-ready single-page web application based on the following requirements:\n\nBRIEF:\n"
  /** Fixed prompt text after the checks (a stand-in for the numbered
      requirements and the output-format instructions). */
  const PromptRules := "\n\nREQUIREMENTS:\n...\n\nOUTPUT FORMAT:\n..."

  /** The content preview an attachment contributes: present only for text
      content shorter than 1000 characters, and then its first 500. */
  function Preview(d: Decoded): (r: Option<string>)
    ensures r.Some? <==> d.content.Text? && |d.content.text| < 1000
    ensures r.Some? ==> |r.value| <= 500 && StartsWith(d.content.text, r.value)
    ensures r.Some? && |d.content.text| <= 500 ==> r.value == d.content.text
    ensures r.Some? && |d.content.text| > 500 ==> |r.value| == 500
  {
    match d.content
    case Text(t) => if |t| < 1000 then Some(Slice(t, 0, 500)) else None
    case Binary(_) => None
  }

  /** The line naming an attachment and its MIME type. */
  function EntryHead(d: Decoded): string {
    "- " + Str(d.name) + " (" + d.mime + ")\n"
  }

  /** One attachment's part of the prompt: the line naming it and its MIME
      type, followed by a content line only when there is a preview. */
  function AttachmentEntry(d: Decoded): (r: string)
    ensures StartsWith(r, EntryHead(d))
    ensures Contains(r, Str(d.name)) && Contains(r, d.mime)
    ensures Preview(d).None? ==> r == EntryHead(d)
    ensures Preview(d).Some? ==> Contains(r, "  Content: " + Preview(d).value + "...\n")
  {
    var head := EntryHead(d);
    ContainsSelf(Str(d.name));
    ContainsInfix("- ", Str(d.name), " (" + d.mime + ")\n", Str(d.name));
    assert "- " + Str(d.name) + (" (" + d.mime + ")\n") == head;
    ContainsSelf(d.mime);
    ContainsInfix("- " + Str(d.name) + " (", d.mime, ")\n", d.mime);
    match Preview(d)
    case Some(p) =>
      var line := "  Content: " + p + "...\n";
      ContainsSelf(line);
      ContainsInfix(head, line, "", line);
      assert head + line + "" == head + line;
      PrefixContains(head, line, Str(d.name));
      PrefixContains(head, line, d.mime);
      head + line
    case None => head
  }

  /** Whatever occurs in `a` occurs in `a + b`, which starts with `a`. */
  lemma {:induction false} PrefixContains(a: string, b: string, sub: string)
    requires Contains(a, sub)
    ensures Contains(a + b, sub) && StartsWith(a + b, a)
  {
    ContainsInfix("", a, b, sub);
    assert "" + a + b == a + b;
    assert (a + b)[..|a|] == a;
  }

  /** The entries of the attachments, in list order. */
  function AttachmentEntries(ds: seq<Decoded>): (r: seq<string>)
    ensures |r| == |ds| && forall k | 0 <= k < |ds| :: r[k] == AttachmentEntry(ds[k])
  {
    seq(|ds|, k requires 0 <= k < |ds| => AttachmentEntry(ds[k]))
  }

  const AttachmentsHeading := "\n\nATTACHMENTS:\n"

  /** The attachments section: absent when nothing decoded, otherwise a
      heading and one entry per attachment. */
  function AttachmentsInfo(ds: seq<Decoded>): (r: string)
    ensures r == "" <==> |ds| == 0
    ensures forall k | 0 <= k < |ds| :: Contains(r, AttachmentEntry(ds[k]))
  {
    if |ds| == 0 then ""
    else
      var entries := AttachmentEntries(ds);
      forall k | 0 <= k < |ds| ensures Contains(AttachmentsHeading + Join("", entries), AttachmentEntry(ds[k])) {
        JoinContainsParts("", entries, k);
        ContainsBack(AttachmentsHeading, Join("", entries), entries[k]);
      }
      AttachmentsHeading + Join("", entries)
  }

  /** `[f"- {check}" for check in checks]`: never raises, whatever the type. */
  function CheckBullets(checks: seq<JValue>): (r: seq<string>)
    ensures |r| == |checks|
    ensures forall i | 0 <= i < |checks| :: r[i] == "- " + Str(checks[i])
  {
    if |checks| == 0 then [] else ["- " + Str(checks[0])] + CheckBullets(checks[1..])
  }

  const ChecksHeading := "\n\nVALIDATION CHECKS:\n"

  /** The checks section: absent for an empty list, otherwise one bullet per
      check. */
  function ChecksInfo(checks: seq<JValue>): (r: string)
    ensures r == "" <==> |checks| == 0
    ensures forall i | 0 <= i < |checks| :: Contains(r, "- " + Str(checks[i]))
  {
    if |checks| == 0 then ""
    else
      ChecksSectionLists(checks);
      ChecksHeading + Join("\n", CheckBullets(checks))
  }

  lemma {:induction false} ChecksSectionLists(checks: seq<JValue>)
    ensures forall i | 0 <= i < |checks| ::
      Contains(ChecksHeading + Join("\n", CheckBullets(checks)), "- " + Str(checks[i]))
  {
    var body := Join("\n", CheckBullets(checks));
    forall i | 0 <= i < |checks| ensures Contains(ChecksHeading + body, "- " + Str(checks[i])) {
      JoinContainsParts("\n", CheckBullets(checks), i);
      ContainsInfix(ChecksHeading, body, "", "- " + Str(checks[i]));
      assert ChecksHeading + body + "" == ChecksHeading + body;
    }
  }

  /** `build_generation_prompt`: the prompt carries the brief, an entry for
      every decoded attachment and a bullet for every check. */
  function BuildGenerationPrompt(brief: string, checks: seq<JValue>, ds: seq<Decoded>): (r: string)
    ensures Contains(r, brief)
    ensures forall k | 0 <= k < |ds| :: Contains(r, AttachmentEntry(ds[k]))
    ensures forall i | 0 <= i < |checks| :: Contains(r, "- " + Str(checks[i]))
  {
    var tail := "\n" + AttachmentsInfo(ds) + "\n";
    PromptContains(brief, tail, checks);
    PromptListsAttachments(brief, ds, ChecksInfo(checks) + PromptRules);
    Regroup3(PromptIntro + brief + tail, ChecksInfo(checks), PromptRules);
    PromptIntro + brief + tail + ChecksInfo(checks) + PromptRules
  }

  /** The attachments section, and so each entry, occurs in the prompt. */
  lemma {:induction false} PromptListsAttachments(brief: string, ds: seq<Decoded>, rest: string)
    ensures forall k | 0 <= k < |ds| ::
      Contains(PromptIntro + brief + ("\n" + AttachmentsInfo(ds) + "\n") + rest, AttachmentEntry(ds[k]))
  {
    var info := AttachmentsInfo(ds);
    var tail := "\n" + info + "\n";
    forall k | 0 <= k < |ds| ensures Contains(PromptIntro + brief + tail + rest, AttachmentEntry(ds[k])) {
      ContainsInfix("\n", info, "\n", AttachmentEntry(ds[k]));
      ContainsInfix(PromptIntro + brief, tail, rest, AttachmentEntry(ds[k]));
    }
  }

  lemma {:induction false} PromptContains(brief: string, tail: string, checks: seq<JValue>)
    ensures var r := PromptIntro + brief + tail + ChecksInfo(checks) + PromptRules;
      && Contains(r, brief)
      && forall i | 0 <= i < |checks| :: Contains(r, "- " + Str(checks[i]))
  {
    var r := PromptIntro + brief + tail + ChecksInfo(checks) + PromptRules;
    ContainsSelf(brief);
    ContainsInfix(PromptIntro, brief, tail + ChecksInfo(checks) + PromptRules, brief);
    assert PromptIntro + brief + (tail + ChecksInfo(checks) + PromptRules) == r;
    forall i | 0 <= i < |checks| ensures Contains(r, "- " + Str(checks[i])) {
      ContainsInfix(PromptIntro + brief + tail, ChecksInfo(checks), PromptRules, "- " + Str(checks[i]));
    }
  }

  // ---------------------------------------------------------------------------
  // Parsing the model's reply

  const Fence := "```"
  const HtmlFence := "```html"
  const MarkdownFence := "```markdown"
  const MdFence := "```md"
  const Doctype := "<!DOCTYPE html>"
  const HtmlClose := "</html>"

  /** Python's `text[start:end].strip()`. */
  function StrippedSlice(text: string, start: int, end: int): string {
    Strip(Slice(text, start, end))
  }

  /** The stripped text from just after the first `marker` up to the next
      fence; when no fence follows, `find` answers -1 and the slice stops one
      character short of the end. */
  function FencedSpan(text: string, marker: string): string
    requires |marker| > 0
  {
    SpanFrom(text, Find(text, marker, 0) + |marker|)
  }

  /** The stripped text from `start` up to the next fence. */
  function SpanFrom(text: string, start: nat): string {
    StrippedSlice(text, start, Find(text, Fence, start))
  }

  /** The stripped text from the `<!DOCTYPE html>` at `start` through the
      following `</html>`; when there is none, `find` answers -1 and the slice
      ends at index 6. */
  function DoctypeSpan(text: string, start: nat): string {
    StrippedSlice(text, start, Find(text, HtmlClose, start) + 7)
  }

  /** The `index.html` part of `parse_llm_response`. */
  function ExtractHtml(text: string): (r: string)
    ensures r != "" ==> Contains(text, HtmlFence) || Contains(text, Doctype)
  {
    if Contains(text, HtmlFence) then FencedSpan(text, HtmlFence)
    else if Contains(text, Doctype) then
      FindAgreesWithContains(text, Doctype);
      DoctypeSpan(text, Find(text, Doctype, 0))
    else ""
  }

  /** The `README.md` part of `parse_llm_response`; a `markdown` fence wins
      over an `md` fence. */
  function ExtractReadme(text: string): (r: string)
    ensures r != "" ==> (Contains(text, "README") || Contains(text, "readme"))
    ensures r != "" ==> (Contains(text, MarkdownFence) || Contains(text, MdFence))
  {
    if !(Contains(text, "README") || Contains(text, "readme")) then ""
    else if Contains(text, MarkdownFence) then FencedSpan(text, MarkdownFence)
    else if Contains(text, MdFence) then FencedSpan(text, MdFence)
    else ""
  }

  /** `parse_llm_response`: always exactly the two keys. */
  function ParseLlmResponse(text: string): (r: Files)
    ensures r.Keys == {IndexHtml, ReadmeMd}
    ensures r[IndexHtml] != "" ==> Contains(text, HtmlFence) || Contains(text, Doctype)
    ensures r[ReadmeMd] != "" ==> (Contains(text, "README") || Contains(text, "readme"))
    ensures r[ReadmeMd] != "" ==> (Contains(text, MarkdownFence) || Contains(text, MdFence))
  {
    map[IndexHtml := ExtractHtml(text), ReadmeMd := ExtractReadme(text)]
  }

  /** An occurrence of a string starting with `c` needs `c` at its start. */
  lemma {:induction false} OccursStartsWith(s: string, sub: string, i: int)
    requires |sub| > 0 && OccursAt(s, sub, i)
    ensures s[i] == sub[0]
  {
    assert s[i..i + |sub|][0] == sub[0];
  }

  /** `FencedSpan` read off from where the two `find` calls land. */
  lemma {:induction false} SpanFromFinds(text: string, marker: string, b: nat, e: nat)
    requires |marker| > 0
    requires Find(text, marker, 0) + |marker| == b
    requires Find(text, Fence, b) == e
    ensures FencedSpan(text, marker) == StrippedSlice(text, b, e)
  {
    assert FencedSpan(text, marker) == SpanFrom(text, b);
  }

  /** The same when no closing fence follows. */
  lemma {:induction false} SpanFromMiss(text: string, marker: string, b: nat)
    requires |marker| > 0
    requires Find(text, marker, 0) + |marker| == b
    requires Find(text, Fence, b) == -1
    ensures FencedSpan(text, marker) == StrippedSlice(text, b, -1)
  {
    assert FencedSpan(text, marker) == SpanFrom(text, b);
  }

  /** `sub` occurs in `s + sub` only at the end: in any text that starts
      with `s + sub`, the first `sub` is the one right after `s`. */
  predicate FirstAtEnd(s: string, sub: string) {
    forall i | 0 <= i < |s| :: !OccursAt(s + sub, sub, i)
  }

  /** The common shape of a fenced block: the marker first occurs right
      after `pre`, and the closing fence right after `body`. */
  lemma {:induction false} FencedBlock(text: string, pre: string, marker: string, body: string, post: string)
    requires |marker| > 0
    requires FirstAtEnd(pre, marker) && FirstAtEnd(body, Fence)
    requires text == pre + marker + body + Fence + post
    ensures Contains(text, marker) && Find(text, marker, 0) == |pre|
    ensures FencedSpan(text, marker) == Strip(body)
  {
    var head := pre + marker;
    Regroup(pre, marker, body, Fence, post);
    assert text == [] + (pre + marker) + (body + Fence + post);
    FirstAfterGap(text, [], pre, marker, body + Fence + post, 0);
    FindAgreesWithContains(text, marker);
    assert text == head + (body + Fence) + post;
    FirstAfterGap(text, head, body, Fence, post, |head|);
    SpanFromFinds(text, marker, |head|, |head| + |body|);
    SliceInfix(text, head, body, Fence + post);
  }

  /** A ```` ```html ```` block is extracted without its fences, whatever
      backticks the text before it and its body hold, as long as neither
      holds the fence that ends it. */
  lemma {:induction false} FencedHtmlExtracted(pre: string, body: string, post: string)
    requires FirstAtEnd(pre, HtmlFence) && FirstAtEnd(body, Fence)
    ensures ExtractHtml(pre + HtmlFence + body + Fence + post) == Strip(body)
  {
    FencedBlock(pre + HtmlFence + body + Fence + post, pre, HtmlFence, body, post);
  }

  /** A string without the first character of `sub` (a backtick for a
      fence, `<` for a doctype) holds no `sub`. */
  lemma {:induction false} NoLeadCharFirstAtEnd(s: string, sub: string)
    requires |sub| > 0 && sub[0] !in s
    ensures FirstAtEnd(s, sub)
  {
    forall i | 0 <= i < |s| ensures !OccursAt(s + sub, sub, i) {
      assert (s + sub)[i] == s[i];
      Mismatch(s + sub, sub, i, 0);
    }
  }

  /** An unclosed ```` ```html ```` block: `find` answers -1, so the slice
      stops one short of the end and the last character is lost. */
  lemma {:induction false} UnclosedFenceDropsLastChar(pre: string, body: string)
    requires FirstAtEnd(pre, HtmlFence) && !Contains(body, Fence)
    ensures ExtractHtml(pre + HtmlFence + body) == Strip(if body == "" then "" else body[..|body| - 1])
  {
    var text := pre + HtmlFence + body;
    UnclosedFence(text, pre, body);
  }

  lemma {:induction false} UnclosedFence(text: string, pre: string, body: string)
    requires FirstAtEnd(pre, HtmlFence) && !Contains(body, Fence)
    requires text == pre + HtmlFence + body
    ensures Contains(text, HtmlFence)
    ensures FencedSpan(text, HtmlFence) == Strip(if body == "" then "" else body[..|body| - 1])
  {
    UnclosedFenceFinds(text, pre, body);
    SpanFromMiss(text, HtmlFence, |pre| + 7);
    SliceTailToLast(text, pre + HtmlFence, body);
  }

  /** Where the two `find` calls land on an unclosed ```` ```html ```` block. */
  lemma {:induction false} UnclosedFenceFinds(text: string, pre: string, body: string)
    requires FirstAtEnd(pre, HtmlFence) && !Contains(body, Fence)
    requires text == pre + HtmlFence + body
    ensures Contains(text, HtmlFence)
    ensures Find(text, HtmlFence, 0) == |pre|
    ensures Find(text, Fence, |pre| + 7) == -1
  {
    MarkerAfter(text, pre, HtmlFence, body);
    NoFenceAfter(text, pre + HtmlFence, body);
  }

  /** The first `marker` of `pre + marker + rest` is the one after `pre`
      when `pre` holds none of its own. */
  lemma {:induction false} MarkerAfter(text: string, pre: string, marker: string, rest: string)
    requires FirstAtEnd(pre, marker) && text == pre + marker + rest
    ensures Contains(text, marker) && Find(text, marker, 0) == |pre|
  {
    assert text == [] + (pre + marker) + rest;
    FirstAfterGap(text, [], pre, marker, rest, 0);
    FindAgreesWithContains(text, marker);
  }

  /** No fence follows `head` when the rest holds none. */
  lemma {:induction false} NoFenceAfter(text: string, head: string, rest: string)
    requires !Contains(rest, Fence) && text == head + rest
    ensures Find(text, Fence, |head|) == -1
  {
    forall i | |head| <= i <= |text| - |Fence| ensures !OccursAt(text, Fence, i) {
      assert text == head + rest + "";
      OccursInside(head, rest, "", Fence, i - |head|);
    }
    FindMisses(text, Fence, |head|);
  }

  /** The first `<!DOCTYPE html>` of `pre + <!DOCTYPE html> + rest` is the one
      after `pre` when `pre` holds none of its own. */
  lemma {:induction false} DoctypeAfter(text: string, pre: string, rest: string)
    requires FirstAtEnd(pre, Doctype) && text == pre + Doctype + rest
    ensures Contains(text, Doctype) && Find(text, Doctype, 0) == |pre|
  {
    MarkerAfter(text, pre, Doctype, rest);
  }

  /** Without a ```` ```html ```` fence, the span from the first
      `<!DOCTYPE html>` through the first following `</html>` is taken. */
  lemma {:induction false} DoctypeSpanExtracted(pre: string, mid: string, post: string)
    requires FirstAtEnd(pre, Doctype)
    requires FirstAtEnd(mid, HtmlClose)
    requires !Contains(pre + Doctype + mid + HtmlClose + post, HtmlFence)
    ensures ExtractHtml(pre + Doctype + mid + HtmlClose + post) == Strip(Doctype + mid + HtmlClose)
  {
    var text := pre + Doctype + mid + HtmlClose + post;
    DoctypeClosed(text, pre, mid, post);
  }

  lemma {:induction false} DoctypeClosed(text: string, pre: string, mid: string, post: string)
    requires FirstAtEnd(pre, Doctype)
    requires FirstAtEnd(mid, HtmlClose)
    requires text == pre + Doctype + mid + HtmlClose + post
    ensures Contains(text, Doctype) && Find(text, Doctype, 0) == |pre|
    ensures DoctypeSpan(text, |pre|) == Strip(Doctype + mid + HtmlClose)
  {
    Regroup(pre, Doctype, mid, HtmlClose, post);
    DoctypeAfter(text, pre, mid + HtmlClose + post);
    CloseAfterDoctype(text, pre, mid, post);
    DoctypeSpanAt(text, pre, Doctype + mid + HtmlClose, post);
  }

  /** When the first `</html>` ends exactly where `whole` ends, the span is
      `whole`, stripped. */
  lemma {:induction false} DoctypeSpanAt(text: string, pre: string, whole: string, post: string)
    requires text == pre + whole + post
    requires Find(text, HtmlClose, |pre|) + 7 == |pre| + |whole|
    ensures DoctypeSpan(text, |pre|) == Strip(whole)
  {
    SliceInfix(text, pre, whole, post);
  }

  /** The first `</html>` after the `<!DOCTYPE html>` is the one after `mid`. */
  lemma {:induction false} CloseAfterDoctype(text: string, pre: string, mid: string, post: string)
    requires FirstAtEnd(mid, HtmlClose)
    requires text == pre + Doctype + mid + HtmlClose + post
    ensures Find(text, HtmlClose, |pre|) == |pre| + 15 + |mid|
  {
    var head := pre + Doctype;
    Regroup(pre, Doctype, mid, HtmlClose, post);
    forall i | |pre| <= i < |head| ensures !OccursAt(text, HtmlClose, i) {
      DoctypeHasNoClose(text, pre, mid + HtmlClose + post, i - |pre|);
    }
    FirstAfterGap(text, head, mid, HtmlClose, post, |pre|);
  }

  /** When nothing from `a` to the end of `head` starts a `close`, and none
      starts inside `mid` either, the first one from `a` is the one after
      `mid`. */
  lemma {:induction false} FirstAfterGap(text: string, head: string, mid: string, close: string, post: string, a: nat)
    requires text == head + (mid + close) + post && a <= |head|
    requires FirstAtEnd(mid, close)
    requires forall i | a <= i < |head| :: !OccursAt(text, close, i)
    ensures Find(text, close, a) == |head| + |mid|
  {
    var c := |head| + |mid|;
    OccursInside(head, mid + close, post, close, |mid|);
    assert OccursAt(mid + close, close, |mid|);
    forall i | |head| <= i < c ensures !OccursAt(text, close, i) {
      OccursInside(head, mid + close, post, close, i - |head|);
    }
    FindIsFirst(text, close, a, c);
  }

  /** No `</html>` starts inside the `<!DOCTYPE html>` that follows `pre`. */
  lemma {:induction false} DoctypeHasNoClose(text: string, pre: string, rest: string, k: nat)
    requires text == pre + Doctype + rest && k < 15
    ensures !OccursAt(text, HtmlClose, |pre| + k)
  {
    var i := |pre| + k;
    Regroup3(pre, Doctype, rest);
    assert text[i] == Doctype[k];
    if k == 0 {
      assert text[i + 1] == Doctype[1];
      Mismatch(text, HtmlClose, i, 1);
    } else {
      Mismatch(text, HtmlClose, i, 0);
    }
  }

  /** Without a closing `</html>`, `find` answers -1 and the slice ends at
      index 6: a reply that begins with `<!DOCTYPE html>` yields just
      `<!DOCT`, and one whose doctype starts at index 6 or later yields
      nothing. */
  lemma {:induction false} UnclosedDoctypeTruncated(pre: string, rest: string)
    requires FirstAtEnd(pre, Doctype)
    requires !Contains(pre + Doctype + rest, HtmlClose)
    requires !Contains(pre + Doctype + rest, HtmlFence)
    ensures |pre| == 0 ==> ExtractHtml(pre + Doctype + rest) == "<!DOCT"
    ensures |pre| >= 6 ==> ExtractHtml(pre + Doctype + rest) == ""
  {
    var text := pre + Doctype + rest;
    DoctypeUnclosed(text, pre, rest);
  }

  lemma {:induction false} DoctypeUnclosed(text: string, pre: string, rest: string)
    requires FirstAtEnd(pre, Doctype) && !Contains(text, HtmlClose)
    requires text == pre + Doctype + rest
    ensures Contains(text, Doctype) && Find(text, Doctype, 0) == |pre|
    ensures |pre| == 0 ==> DoctypeSpan(text, |pre|) == "<!DOCT"
    ensures |pre| >= 6 ==> DoctypeSpan(text, |pre|) == ""
  {
    DoctypeAfter(text, pre, rest);
    NotContainedNotFound(text, HtmlClose, |pre|);
    if |pre| == 0 {
      DoctypeHead(text, rest);
    }
  }

  /** The first six characters of a reply that opens with `<!DOCTYPE html>`. */
  lemma {:induction false} DoctypeHead(text: string, rest: string)
    requires text == Doctype + rest
    ensures StrippedSlice(text, 0, 6) == "<!DOCT"
  {
    SliceOfPrefix(text, Doctype, rest, 6);
    assert Doctype[..6] == "<!DOCT";
    StripByKeeps("<!DOCT", IsSpace);
  }

  /** A ```` ```markdown ```` block is the README when the reply mentions a
      README, whatever follows it (even an ```` ```md ```` block). */
  lemma {:induction false} MarkdownReadmeExtracted(pre: string, body: string, post: string)
    requires FirstAtEnd(pre, MarkdownFence) && FirstAtEnd(body, Fence)
    requires Contains(pre + MarkdownFence + body + Fence + post, "README")
          || Contains(pre + MarkdownFence + body + Fence + post, "readme")
    ensures ExtractReadme(pre + MarkdownFence + body + Fence + post) == Strip(body)
  {
    FencedBlock(pre + MarkdownFence + body + Fence + post, pre, MarkdownFence, body, post);
  }

  /** Without a ```` ```markdown ```` fence anywhere, a closed ```` ```md ````
      block is the README when the reply mentions a README. */
  lemma {:induction false} MdReadmeExtracted(pre: string, body: string, post: string)
    requires !Contains(pre + MdFence + body + Fence + post, MarkdownFence)
    requires FirstAtEnd(pre, MdFence) && FirstAtEnd(body, Fence)
    requires Contains(pre + MdFence + body + Fence + post, "README")
          || Contains(pre + MdFence + body + Fence + post, "readme")
    ensures ExtractReadme(pre + MdFence + body + Fence + post) == Strip(body)
  {
    FencedBlock(pre + MdFence + body + Fence + post, pre, MdFence, body, post);
  }

  /** A ```` ```markdown ```` block wins over an ```` ```md ```` block that
      comes before it: the README is the later block's body. */
  lemma {:induction false} MarkdownPreferredOverMd(pre: string, mdBody: string, body: string, post: string)
    requires '`' !in pre && '`' !in mdBody && FirstAtEnd(body, Fence)
    requires var text := pre + MdFence + mdBody + Fence + "\n" + MarkdownFence + body + Fence + post;
      Contains(text, "README") || Contains(text, "readme")
    ensures var text := pre + MdFence + mdBody + Fence + "\n" + MarkdownFence + body + Fence + post;
      && 0 <= Find(text, MdFence, 0) < Find(text, MarkdownFence, 0)
      && ExtractReadme(text) == Strip(body)
  {
    var lead := pre + MdFence + mdBody + Fence + "\n";
    var text := lead + MarkdownFence + body + Fence + post;
    MdBlockHasNoMarkdownFence(pre, mdBody);
    FencedBlock(text, lead, MarkdownFence, body, post);
    MdFenceAt(pre, mdBody, MarkdownFence + body + Fence + post);
    Regroup(lead, MarkdownFence, body, Fence, post);
  }

  /** The ```` ```md ```` fence right after `pre` occurs at index `|pre|`, so
      `find` lands there or earlier. */
  lemma {:induction false} MdFenceAt(pre: string, mdBody: string, rest: string)
    ensures var text := pre + MdFence + mdBody + Fence + "\n" + rest;
      0 <= Find(text, MdFence, 0) <= |pre|
  {
    var text := pre + MdFence + mdBody + Fence + "\n" + rest;
    assert text == pre + (MdFence + (mdBody + Fence + "\n" + rest));
    OccursAfterPrefix(pre, MdFence + (mdBody + Fence + "\n" + rest), MdFence);
  }

  /** An ```` ```md ```` block closed by a fence and a line break holds no
      ```` ```markdown ```` fence. */
  lemma {:induction false} MdBlockHasNoMarkdownFence(pre: string, mdBody: string)
    requires '`' !in pre && '`' !in mdBody
    ensures FirstAtEnd(pre + MdFence + mdBody + Fence + "\n", MarkdownFence)
  {
    var lead := pre + MdFence + mdBody + Fence + "\n";
    var u := lead + MarkdownFence;
    var a := |pre|;
    var b := |pre| + 5 + |mdBody|;
    assert u == pre + MdFence + (mdBody + Fence + "\n" + MarkdownFence);
    assert u[a..a + 5] == MdFence;
    forall i | 0 <= i < a ensures u[i] != '`' {
      assert u[i] == pre[i];
    }
    NoBacktickNoMarkdown(u, 0, a);
    MdNoMarkdown(u, a);
    assert u == (pre + MdFence) + mdBody + (Fence + "\n" + MarkdownFence);
    forall i | a + 5 <= i < b ensures u[i] != '`' {
      assert u[i] == mdBody[i - a - 5];
    }
    NoBacktickNoMarkdown(u, a + 5, b);
    assert u == (pre + MdFence + mdBody) + (Fence + "\n") + MarkdownFence;
    assert u[b..b + 4] == "```\n";
    LineEndNoMarkdown(u, b);
  }

  /** No ```` ```markdown ```` starts where there is no backtick. */
  lemma {:induction false} NoBacktickNoMarkdown(u: string, lo: nat, hi: nat)
    requires hi <= |u|
    requires forall i | lo <= i < hi :: u[i] != '`'
    ensures forall i | lo <= i < hi :: !OccursAt(u, MarkdownFence, i)
  {
    forall i | lo <= i < hi ensures !OccursAt(u, MarkdownFence, i) {
      Mismatch(u, MarkdownFence, i, 0);
    }
  }

  /** No ```` ```markdown ```` starts inside an ```` ```md ````. */
  lemma {:induction false} MdNoMarkdown(u: string, a: nat)
    requires a + 5 <= |u| && u[a..a + 5] == MdFence
    ensures forall i | a <= i < a + 5 :: !OccursAt(u, MarkdownFence, i)
  {
    assert u[a + 3] == 'm' && u[a + 4] == 'd';
    Mismatch(u, MarkdownFence, a, 4);
    Mismatch(u, MarkdownFence, a + 1, 2);
    Mismatch(u, MarkdownFence, a + 2, 1);
    Mismatch(u, MarkdownFence, a + 3, 0);
    Mismatch(u, MarkdownFence, a + 4, 0);
  }

  /** No ```` ```markdown ```` starts inside a closing fence and its line
      break. */
  lemma {:induction false} LineEndNoMarkdown(u: string, b: nat)
    requires b + 4 <= |u| && u[b..b + 4] == "```\n"
    ensures forall i | b <= i < b + 4 :: !OccursAt(u, MarkdownFence, i)
  {
    assert u[b + 3] == '\n';
    Mismatch(u, MarkdownFence, b, 3);
    Mismatch(u, MarkdownFence, b + 1, 2);
    Mismatch(u, MarkdownFence, b + 2, 1);
    Mismatch(u, MarkdownFence, b + 3, 0);
  }

  /** Without a mention of a README the reply contributes no README, whatever
      fences it has. */
  lemma {:induction false} NoMentionNoReadme(text: string)
    requires !Contains(text, "README") && !Contains(text, "readme")
    ensures ParseLlmResponse(text)[ReadmeMd] == ""
  {
  }

  // ---------------------------------------------------------------------------
  // Template fallback

  /** Fixed page text around the brief (stand-ins for the page's markup). */
  const TemplateHtmlHead := "<!DOCTYPE html>\n<html lang=\"en\">\n<head>...</head>\n<body>\n    <div class=\"container\">\n        <h1 class=\"app-title\">Generated Application</h1>\n        <div class=\"alert alert-info\">\n            <h5>Brief:</h5>\n            <p>"
  const TemplateHtmlTail := "</p>\n        </div>\n        ...\n</body>\n</html>"
  /** Fixed README text around the brief and the requirements list. */
  const TemplateReadmeHead := "# Generated Application\n\n## Overview\nThis application was automatically generated based on the following brief:\n\n"
  const TemplateReadmeMid := "\n\n## Requirements\n"
  const TemplateReadmeTail := "\n\n## Usage\n...\n\n## License\nMIT License\n"
  const NoChecksProvided := "No specific checks provided."

  /** Python's message for `'- ' + check` when `check` is not a `str`. */
  function ConcatError(v: JValue): string {
    "can only concatenate str (not \"" + TypeName(v) + "\") to str"
  }

  /** `['- ' + check for check in checks]`: raises at the first check that is
      not a string. */
  function RequirementLines(checks: seq<JValue>): (r: Result<seq<string>>)
    ensures r.Ok? <==> forall i | 0 <= i < |checks| :: checks[i].JStr?
    ensures r.Ok? ==> |r.value| == |checks|
    ensures r.Ok? ==> forall i | 0 <= i < |checks| :: r.value[i] == "- " + checks[i].s
    ensures r.Err? ==> exists k | 0 <= k < |checks| ::
      && !checks[k].JStr?
      && (forall j | 0 <= j < k :: checks[j].JStr?)
      && r.error == ConcatError(checks[k])
  {
    if |checks| == 0 then Ok([])
    else if !checks[0].JStr? then Err(ConcatError(checks[0]))
    else
      var rest := RequirementLines(checks[1..]);
      assert forall i | 1 <= i < |checks| :: checks[i] == checks[1..][i - 1];
      match rest
      case Ok(lines) => Ok(["- " + checks[0].s] + lines)
      case Err(e) =>
        var k :| 0 <= k < |checks| - 1 && !checks[1..][k].JStr?
          && (forall j | 0 <= j < k :: checks[1..][j].JStr?) && e == ConcatError(checks[1..][k]);
        assert !checks[k + 1].JStr? && e == ConcatError(checks[k + 1]);
        Err(e)
  }

  function TemplateReadme(brief: string, requirements: string): string {
    TemplateReadmeHead + brief + TemplateReadmeMid + requirements + TemplateReadmeTail
  }

  /** `generate_template_code`: the page embeds the brief verbatim; the README
      embeds the brief and lists each check as `- check`, or says that no
      checks were provided. It raises when a check is not a string. */
  function TemplateCode(brief: string, checks: seq<JValue>): (r: Result<Files>)
    ensures r.Ok? <==> forall i | 0 <= i < |checks| :: checks[i].JStr?
    ensures r.Ok? ==> r.value.Keys == {IndexHtml, ReadmeMd}
    ensures r.Ok? ==> Contains(r.value[IndexHtml], brief) && Contains(r.value[ReadmeMd], brief)
    ensures r.Ok? ==> forall i | 0 <= i < |checks| :: Contains(r.value[ReadmeMd], "- " + checks[i].s)
    ensures r.Ok? && |checks| == 0 ==> Contains(r.value[ReadmeMd], NoChecksProvided)
    ensures r.Err? ==> exists k | 0 <= k < |checks| :: !checks[k].JStr? && r.error == ConcatError(checks[k])
  {
    var html := TemplateHtmlHead + brief + TemplateHtmlTail;
    ContainsSelf(brief);
    ContainsInfix(TemplateHtmlHead, brief, TemplateHtmlTail, brief);
    var requirements: Result<string> :=
      if |checks| == 0 then Ok(NoChecksProvided)
      else match RequirementLines(checks)
        case Ok(lines) => Ok(Join("\n", lines))
        case Err(e) => Err(e);
    match requirements
    case Err(e) => Err(e)
    case Ok(req) =>
      TemplateReadmeContains(brief, req);
      TemplateReadmeLists(brief, checks, req);
      Ok(map[IndexHtml := html, ReadmeMd := TemplateReadme(brief, req)])
  }

  lemma {:induction false} TemplateReadmeLists(brief: string, checks: seq<JValue>, req: string)
    requires |checks| == 0 ==> req == NoChecksProvided
    requires |checks| > 0 ==> RequirementLines(checks).Ok? && req == Join("\n", RequirementLines(checks).value)
    ensures forall i | 0 <= i < |checks| :: checks[i].JStr? && Contains(TemplateReadme(brief, req), "- " + checks[i].s)
    ensures |checks| == 0 ==> Contains(TemplateReadme(brief, req), NoChecksProvided)
  {
    if |checks| > 0 {
      var lines := RequirementLines(checks).value;
      forall i | 0 <= i < |checks| ensures Contains(TemplateReadme(brief, req), "- " + checks[i].s) {
        JoinContainsParts("\n", lines, i);
        TemplateReadmeContainsPart(brief, req, lines[i]);
      }
    } else {
      ContainsSelf(NoChecksProvided);
      TemplateReadmeContainsPart(brief, req, NoChecksProvided);
    }
  }

  lemma {:induction false} TemplateReadmeContains(brief: string, req: string)
    ensures Contains(TemplateReadme(brief, req), brief)
  {
    ContainsSelf(brief);
    ContainsInfix(TemplateReadmeHead, brief, TemplateReadmeMid + req + TemplateReadmeTail, brief);
    assert TemplateReadmeHead + brief + (TemplateReadmeMid + req + TemplateReadmeTail) == TemplateReadme(brief, req);
  }

  lemma {:induction false} TemplateReadmeContainsPart(brief: string, req: string, part: string)
    requires Contains(req, part)
    ensures Contains(TemplateReadme(brief, req), part)
  {
    ContainsInfix(TemplateReadmeHead + brief + TemplateReadmeMid, req, TemplateReadmeTail, part);
  }

  // ---------------------------------------------------------------------------
  // Backend selection and fallback

  datatype Backend = AiPipe | Anthropic | OpenAi

  /** The three API keys, empty when unset. */
  datatype ApiKeys = ApiKeys(aipipe: string, anthropic: string, openai: string)

  /** The one backend `generate_app_code` tries: AIPIPE, then ANTHROPIC, then
      OPENAI, by which key is set first. */
  function ChooseBackend(keys: ApiKeys): (r: Option<Backend>)
    ensures r == Some(AiPipe) <==> keys.aipipe != ""
    ensures r == Some(Anthropic) <==> keys.aipipe == "" && keys.anthropic != ""
    ensures r == Some(OpenAi) <==> keys.aipipe == "" && keys.anthropic == "" && keys.openai != ""
    ensures r == None <==> keys.aipipe == "" && keys.anthropic == "" && keys.openai == ""
  {
    if keys.aipipe != "" then Some(AiPipe)
    else if keys.anthropic != "" then Some(Anthropic)
    else if keys.openai != "" then Some(OpenAi)
    else None
  }

  /** One backend call. Only the AI Pipeline backend reaches a service (whose
      reply text, or failure, `aipipe` gives); the other two clients are
      never imported, so calling them raises a `NameError`. */
  function CallBackend(b: Backend, prompt: string, aipipe: string -> Result<string>): Result<string> {
    match b
    case AiPipe => aipipe(prompt)
    case Anthropic => Err("name 'anthropic' is not defined")
    case OpenAi => Err("name 'OpenAI' is not defined")
  }

  /** The generated files, the backend that was tried (at most one) and
      whether the template produced the files. */
  datatype Generation = Generation(files: Files, tried: Option<Backend>, templated: bool)

  /** `generate_app_code`. It raises when an attachment is not a dict, and
      otherwise only when the template itself raises. */
  function GenerateAppCode(brief: string, checks: seq<JValue>, attachments: seq<JValue>,
                           keys: ApiKeys, codecs: Codecs, aipipe: string -> Result<string>): (r: Result<Generation>)
    ensures !AllDicts(attachments) ==> r.Err? && exists k | 0 <= k < |attachments| ::
      && !attachments[k].JObj?
      && AllDicts(attachments[..k])
      && r.error == NoAttribute(attachments[k], "get")
    ensures r.Ok? ==> AllDicts(attachments) && r.value.tried == ChooseBackend(keys)
    ensures r.Ok? ==> r.value.files.Keys == {IndexHtml, ReadmeMd}
    ensures AllDicts(attachments) ==>
      var reply := aipipe(BuildGenerationPrompt(brief, checks, DecodeAll(attachments, codecs)));
      keys.aipipe != "" && reply.Ok? ==> r == Ok(Generation(ParseLlmResponse(reply.value), Some(AiPipe), false))
    ensures r.Ok? ==> (r.value.templated <==>
      keys.aipipe == "" || aipipe(BuildGenerationPrompt(brief, checks, DecodeAll(attachments, codecs))).Err?)
    ensures r.Ok? && !r.value.templated ==>
      var reply := aipipe(BuildGenerationPrompt(brief, checks, DecodeAll(attachments, codecs)));
      && r.value.tried == Some(AiPipe)
      && reply.Ok?
      && r.value.files == ParseLlmResponse(reply.value)
    ensures r.Ok? && r.value.templated ==> TemplateCode(brief, checks) == Ok(r.value.files)
    ensures r.Err? && AllDicts(attachments) ==> TemplateCode(brief, checks) == Err(r.error)
  {
    match DecodeLoop(attachments, codecs)
    case Err(e) => Err(e)
    case Ok(decoded) => GenerateFromPrompt(brief, checks, BuildGenerationPrompt(brief, checks, decoded), keys, aipipe)
  }

  /** The `try` of `generate_app_code` once the prompt is built: the chosen
      backend, and the template when there is none or it fails. */
  function GenerateFromPrompt(brief: string, checks: seq<JValue>, prompt: string,
                              keys: ApiKeys, aipipe: string -> Result<string>): (r: Result<Generation>)
    ensures r.Ok? ==> r.value.tried == ChooseBackend(keys)
    ensures r.Ok? ==> r.value.files.Keys == {IndexHtml, ReadmeMd}
    ensures keys.aipipe != "" && aipipe(prompt).Ok? ==>
      r == Ok(Generation(ParseLlmResponse(aipipe(prompt).value), Some(AiPipe), false))
    ensures r.Ok? ==> (r.value.templated <==> keys.aipipe == "" || aipipe(prompt).Err?)
    ensures r.Ok? && r.value.templated ==> TemplateCode(brief, checks) == Ok(r.value.files)
    ensures r.Err? ==> TemplateCode(brief, checks) == Err(r.error)
  {
    var backend := ChooseBackend(keys);
    var reply := if backend.Some? then CallBackend(backend.value, prompt, aipipe) else Err("");
    if backend.Some? && reply.Ok? then
      Ok(Generation(ParseLlmResponse(reply.value), backend, false))
    else
      match TemplateCode(brief, checks)
      case Ok(files) => Ok(Generation(files, backend, true))
      case Err(e) =>
        // In the no-backend case the template raised inside the `try`; the
        // handler calls it again, and it raises again.
        match TemplateCode(brief, checks)
        case Ok(files) => Ok(Generation(files, backend, true))
        case Err(e') => Err(e')
  }

  /** Without an AI Pipeline key the template always produces the files,
      even when an Anthropic or OpenAI key is set. */
  lemma {:induction false} TemplateWithoutAiPipeKey(brief: string, checks: seq<JValue>, attachments: seq<JValue>,
                                 keys: ApiKeys, codecs: Codecs, aipipe: string -> Result<string>)
    requires keys.aipipe == ""
    ensures var r := GenerateAppCode(brief, checks, attachments, keys, codecs, aipipe);
      r.Ok? ==> r.value.templated
  {
  }

  /** A failing backend goes straight to the template: no other backend is
      tried after it. */
  lemma {:induction false} FailureFallsBackToTemplate(brief: string, checks: seq<JValue>, attachments: seq<JValue>,
                                   keys: ApiKeys, codecs: Codecs, aipipe: string -> Result<string>)
    requires keys.aipipe != "" && AllDicts(attachments)
    requires aipipe(BuildGenerationPrompt(brief, checks, DecodeAll(attachments, codecs))).Err?
    requires forall i | 0 <= i < |checks| :: checks[i].JStr?
    ensures GenerateAppCode(brief, checks, attachments, keys, codecs, aipipe)
      == Ok(Generation(TemplateCode(brief, checks).value, Some(AiPipe), true))
  {
  }
}

=== FILE: evaluator.dfy ===
/** Notifying the evaluation service of a finished deployment: one JSON POST,
    retried up to five times with exponential back-off. The network is an
    oracle `respond` that says how the `k`-th attempt went; the pauses are
    returned as the sequence of delays that would be slept. */
module Evaluator {
  import opened PyStr
  import opened Base
  import opened Json

  const MaxRetries: nat := 5
  const RetryDelays: seq<nat> := [1, 2, 4, 8, 16]

  /** The text of the unreachable trailing return after the retry loop. */
  const FallbackError := "Failed after maximum retries"
  const TimeoutError := "Request timeout after multiple retries"

  /** How one POST went. `Replied` carries the status, the body text and what
      `response.json()` gives for it; `RequestFailed` is any other
      `requests` exception (connection refused, DNS failure …); `Crashed` is
      an exception from outside `requests`. */
  datatype Attempt =
    | Replied(status: int, text: string, json: Result<JValue>)
    | TimedOut
    | RequestFailed(message: string)
    | Crashed(message: string)

  /** What the loop does with one attempt: stop with the parsed reply, or
      remember an error and try again. */
  datatype Step = Done(reply: JValue) | Retry(error: string)

  /** The returned dictionary: `{'success': True, 'response': …}` or
      `{'success': False, 'error': …}`. */
  datatype Notification = Notified(response: JValue) | NotifyFailed(error: string)

  /** The body of the POST. */
  function NotificationBody(email: string, task: string, round: JValue, nonce: string,
                            repoUrl: string, commitSha: string, pagesUrl: string): (r: JValue)
    ensures r.JObj?
    ensures r.fields.Keys == {"email", "task", "round", "nonce", "repo_url", "commit_sha", "pages_url"}
    ensures r.fields["email"] == JStr(email) && r.fields["task"] == JStr(task)
    ensures r.fields["round"] == round && r.fields["nonce"] == JStr(nonce)
    ensures r.fields["repo_url"] == JStr(repoUrl) && r.fields["commit_sha"] == JStr(commitSha)
    ensures r.fields["pages_url"] == JStr(pagesUrl)
  {
    JObj(map["email" := JStr(email), "task" := JStr(task), "round" := round, "nonce" := JStr(nonce),
             "repo_url" := JStr(repoUrl), "commit_sha" := JStr(commitSha), "pages_url" := JStr(pagesUrl)])
  }

  /** One pass of the loop body. A 200 reply ends the loop; an empty body
      gives `{}`, and a body that is not JSON makes `response.json()` raise a
      `requests` exception, which is reported like any failed request. */
  function Classify(a: Attempt): (s: Step)
    ensures s.Done? <==> a.Replied? && a.status == 200 && (a.text == "" || a.json.Ok?)
    ensures s.Done? && a.text == "" ==> s.reply == JObj(map[])
    ensures s.Done? && a.text != "" ==> s.reply == a.json.value
  {
    match a
    case Replied(status, text, json) =>
      if status == 200 then
        if text == "" then Done(JObj(map[]))
        else if json.Ok? then Done(json.value)
        else Retry("Request failed: " + json.error)
      else Retry("Evaluation API returned status " + IntToString(status) + ": " + text)
    case TimedOut => Retry(TimeoutError)
    case RequestFailed(m) => Retry("Request failed: " + m)
    case Crashed(m) => Retry("Unexpected error: " + m)
  }

  /** Every error the loop can report names its cause: a status, a timeout,
      a failed request or an unexpected exception, each with its own text. */
  lemma {:induction false} RetryErrorNamesCause(a: Attempt)
    requires Classify(a).Retry?
    ensures var e := Classify(a).error;
      || StartsWith(e, "Evaluation API returned status ")
      || e == TimeoutError
      || StartsWith(e, "Request failed: ")
      || StartsWith(e, "Unexpected error: ")
    ensures Classify(a).error != FallbackError
    ensures a.Replied? && a.status != 200 ==>
      Classify(a).error == "Evaluation API returned status " + IntToString(a.status) + ": " + a.text
    ensures a.Replied? && a.status == 200 ==>
      a.text != "" && a.json.Err? && Classify(a).error == "Request failed: " + a.json.error
    ensures a.TimedOut? ==> Classify(a).error == TimeoutError
    ensures a.RequestFailed? ==> Classify(a).error == "Request failed: " + a.message
    ensures a.Crashed? ==> Classify(a).error == "Unexpected error: " + a.message
  {
    var e := Classify(a).error;
    match a
    case Replied(status, text, json) =>
      if status == 200 {
        assert e == "Request failed: " + json.error;
        assert e[0] == 'R';
      } else {
        assert e == "Evaluation API returned status " + IntToString(status) + ": " + text;
        assert e[0] == 'E';
      }
    case TimedOut =>
      assert e[0] == 'R';
    case RequestFailed(m) =>
      assert e == "Request failed: " + m;
      assert e[0] == 'R';
    case Crashed(m) =>
      assert e == "Unexpected error: " + m;
      assert e[0] == 'U';
  }

  function Sum(xs: seq<nat>): nat {
    if |xs| == 0 then 0 else xs[0] + Sum(xs[1..])
  }

  /** `notify_evaluation_api`: posts `body` until an attempt succeeds or five
      attempts have been made, sleeping `RetryDelays[k]` after the `k`-th
      failure unless it was the last. */
  method NotifyEvaluationApi(body: JValue, respond: nat -> Attempt)
    returns (result: Notification, posts: seq<JValue>, sleeps: seq<nat>, attempts: nat)
    ensures 1 <= attempts <= MaxRetries
    ensures |posts| == attempts && forall k | 0 <= k < |posts| :: posts[k] == body
    ensures forall k | 0 <= k < attempts - 1 :: Classify(respond(k)).Retry?
    ensures result.Notified? <==> Classify(respond(attempts - 1)).Done?
    ensures result.Notified? ==> result.response == Classify(respond(attempts - 1)).reply
    ensures result.NotifyFailed? ==>
      attempts == MaxRetries && result.error == Classify(respond(MaxRetries - 1)).error
    ensures result.NotifyFailed? ==> result.error != FallbackError
    ensures sleeps == RetryDelays[..attempts - 1]
    ensures RetryDelays[MaxRetries - 1] !in sleeps
    ensures Sum(sleeps) == Pow2(attempts - 1) - 1 <= 15
  {
    result := NotifyFailed(FallbackError);
    posts, sleeps, attempts := [], [], 0;
    var done := false;
    while !done
      invariant 0 <= attempts <= MaxRetries
      invariant done || attempts < MaxRetries
      invariant |posts| == attempts && forall k | 0 <= k < |posts| :: posts[k] == body
      invariant forall k | 0 <= k < attempts && (!done || k < attempts - 1) :: Classify(respond(k)).Retry?
      invariant done ==> 1 <= attempts
      invariant done ==> (result.Notified? <==> Classify(respond(attempts - 1)).Done?)
      invariant done && result.Notified? ==> result.response == Classify(respond(attempts - 1)).reply
      invariant done && result.NotifyFailed? ==>
        attempts == MaxRetries && result.error == Classify(respond(MaxRetries - 1)).error
      invariant sleeps == RetryDelays[..if done then attempts - 1 else attempts]
      decreases MaxRetries - attempts, if done then 0 else 1
    {
      var step := Classify(respond(attempts));
      posts := posts + [body];
      attempts := attempts + 1;
      match step
      case Done(reply) =>
        result := Notified(reply);
        done := true;
      case Retry(error) =>
        if attempts < MaxRetries {
          sleeps := sleeps + [RetryDelays[attempts - 1]];
        } else {
          result := NotifyFailed(error);
          done := true;
        }
    }
    if result.NotifyFailed? {
      RetryErrorNamesCause(respond(MaxRetries - 1));
    }
    BackoffTotal(attempts - 1);
    BackoffTotal(MaxRetries - 1);
  }

  function Pow2(n: nat): nat {
    if n == 0 then 1 else 2 * Pow2(n - 1)
  }

  lemma {:induction false} SumSnoc(xs: seq<nat>, x: nat)
    ensures Sum(xs + [x]) == Sum(xs) + x
  {
    if |xs| > 0 {
      assert (xs + [x])[1..] == xs[1..] + [x];
      SumSnoc(xs[1..], x);
    }
  }

  /** The back-off is exponential: the `k`-th delay is `2^k` seconds, so the
      first `n` pauses add up to `2^n - 1` seconds (15 when all five attempts
      fail). */
  lemma {:induction false} BackoffTotal(n: nat)
    requires n <= MaxRetries
    ensures forall k | 0 <= k < n :: RetryDelays[k] == Pow2(k)
    ensures Sum(RetryDelays[..n]) == Pow2(n) - 1
  {
    if n > 0 {
      BackoffTotal(n - 1);
      assert RetryDelays[..n] == RetryDelays[..n - 1] + [RetryDelays[n - 1]];
      SumSnoc(RetryDelays[..n - 1], RetryDelays[n - 1]);
      assert RetryDelays[n - 1] == Pow2(n - 1);
    }
  }

  /** `verify_evaluation_response`: any 200 reply is accepted, whether or not
      its body parses as JSON. */
  function VerifyEvaluationResponse(status: int, json: Result<JValue>): (ok: bool)
    ensures ok <==> status == 200
  {
    if status != 200 then false
    else match json
      case Ok(_) => true
      case Err(_) => true
  }

  /** The verdict ignores the body. */
  lemma {:induction false} ResponseBodyIrrelevant(status: int, a: Result<JValue>, b: Result<JValue>)
    ensures VerifyEvaluationResponse(status, a) == VerifyEvaluationResponse(status, b)
  {
  }
}

=== FILE: github.dfy ===
/** Publishing the generated application: the repository name derived from the
    task, the files committed, the description, the README fallback and the
    GitHub Pages URL. The GitHub API, git and the clock are oracles: `Hub`
    answers repository creation, the push and the Pages request, and `Clock`
    holds the readings of `datetime.utcnow()`. */
module GithubManager {
  import opened Base
  import opened PyStr
  import opened Json
  import CodeGenerator

  const License := "LICENSE"
  const NameLimit: nat := 100
  const DescriptionLimit: nat := 100
  const DescriptionLead := "Auto-generated application: "
  const NoChecks := "No specific checks."
  const TokenMissing := "GITHUB_TOKEN not configured"
  const UsernameMissing := "GITHUB_USERNAME not configured"

  /** Python's `c.isalnum()` on ASCII characters. */
  predicate AsciiAlnum(c: char) {
    ('a' <= c <= 'z') || ('A' <= c <= 'Z') || ('0' <= c <= '9')
  }

  /** `isAlnum` stands for Python's Unicode-aware `str.isalnum`; all the model
      needs of it is that it agrees with the ASCII classification on ASCII
      characters (so `-`, ` ` and `_` are not alphanumeric). */
  predicate AgreesOnAscii(isAlnum: char -> bool) {
    forall c: char | c <= '\U{7f}' :: isAlnum(c) == AsciiAlnum(c)
  }

  /** `strftime('%Y%m%d-%H%M%S')`: eight digits, a hyphen, six digits. */
  predicate IsStamp(s: string) {
    |s| == 15 && forall i | 0 <= i < 15 :: if i == 8 then s[i] == '-' else '0' <= s[i] <= '9'
  }

  /** The readings of `datetime.utcnow()` the module takes: the year, the
      `%Y-%m-%d %H:%M:%S` time stamp for the README footer and the
      `%Y%m%d-%H%M%S` stamp for a fallback repository name. */
  datatype Clock = Clock(year: nat, footerStamp: string, nameStamp: string)

  /** No character of `s` is alphanumeric. */
  predicate NoAlnum(s: string, isAlnum: char -> bool) {
    forall i | 0 <= i < |s| :: !isAlnum(s[i])
  }

  /** Every character of `s` is a hyphen. */
  predicate AllHyphens(s: string) {
    forall i | 0 <= i < |s| :: s[i] == '-'
  }

  /** The characters of a repository name: alphanumerics and `-`. */
  predicate NameChar(isAlnum: char -> bool, c: char) {
    isAlnum(c) || c == '-'
  }

  /** Spaces and underscores become hyphens; every other character that is
      neither alphanumeric nor a hyphen is dropped. */
  function NameChars(s: string, isAlnum: char -> bool): (r: string)
    requires AgreesOnAscii(isAlnum)
    ensures |r| <= |s|
    ensures forall i | 0 <= i < |r| :: NameChar(isAlnum, r[i])
  {
    if |s| == 0 then []
    else
      var c := if s[0] == ' ' || s[0] == '_' then '-' else s[0];
      (if NameChar(isAlnum, c) then [c] else []) + NameChars(s[1..], isAlnum)
  }

  /** Only hyphens survive the filter exactly when the task has no
      alphanumeric character. */
  lemma {:induction false} NameCharsAllHyphens(s: string, isAlnum: char -> bool)
    requires AgreesOnAscii(isAlnum)
    ensures NoAlnum(s, isAlnum) <==> AllHyphens(NameChars(s, isAlnum))
  {
    if |s| > 0 {
      assert !isAlnum('-') && !isAlnum(' ') && !isAlnum('_');
      NameCharsAllHyphens(s[1..], isAlnum);
      var c := if s[0] == ' ' || s[0] == '_' then '-' else s[0];
      var head: string := if NameChar(isAlnum, c) then [c] else [];
      var rest := NameChars(s[1..], isAlnum);
      assert NameChars(s, isAlnum) == head + rest;
      if NoAlnum(s, isAlnum) {
        assert !isAlnum(s[0]);
        forall j | 0 <= j < |rest| ensures rest[j] == '-' {
          assert forall i | 0 <= i < |s[1..]| :: !isAlnum(s[1..][i]) by {
            forall i | 0 <= i < |s[1..]| ensures !isAlnum(s[1..][i]) {
              assert s[1..][i] == s[i + 1];
            }
          }
        }
      } else {
        var i :| 0 <= i < |s| && isAlnum(s[i]);
        if i == 0 {
          assert c == s[0] && head == [c];
          assert NameChars(s, isAlnum)[0] == c;
        } else {
          assert s[1..][i - 1] == s[i];
          var j :| 0 <= j < |rest| && rest[j] != '-';
          assert NameChars(s, isAlnum)[|head| + j] == rest[j];
        }
      }
    }
  }

  /** The filter works character by character. */
  lemma {:induction false} NameCharsAppend(a: string, b: string, isAlnum: char -> bool)
    requires AgreesOnAscii(isAlnum)
    ensures NameChars(a + b, isAlnum) == NameChars(a, isAlnum) + NameChars(b, isAlnum)
  {
    if |a| > 0 {
      assert (a + b)[0] == a[0];
      assert (a + b)[1..] == a[1..] + b;
      NameCharsAppend(a[1..], b, isAlnum);
    } else {
      assert a + b == b;
    }
  }

  /** One character at a time: a space or an underscore becomes a hyphen, an
      alphanumeric or a hyphen is kept, and anything else is dropped. With
      `NameCharsAppend` this determines the filter on every string. */
  lemma {:induction false} NameCharsOne(c: char, isAlnum: char -> bool)
    requires AgreesOnAscii(isAlnum)
    ensures NameChars([c], isAlnum) ==
      if c == ' ' || c == '_' then "-" else if NameChar(isAlnum, c) then [c] else ""
  {
    assert [c][1..] == [];
  }

  /** A string made only of name characters passes the character filter
      unchanged. */
  lemma {:induction false} NameCharsKeep(s: string, isAlnum: char -> bool)
    requires AgreesOnAscii(isAlnum)
    requires forall i | 0 <= i < |s| :: NameChar(isAlnum, s[i])
    ensures NameChars(s, isAlnum) == s
  {
    if |s| > 0 {
      assert !isAlnum(' ') && !isAlnum('_');
      NameCharsKeep(s[1..], isAlnum);
      assert [s[0]] + s[1..] == s;
    }
  }

  /** Stripping hyphens leaves nothing exactly when there was nothing but
      hyphens. */
  lemma {:induction false} HyphenStripEmpty(s: string)
    ensures StripBy(s, IsHyphen) == [] <==> AllHyphens(s)
  {
    var r := StripBy(s, IsHyphen);
    var a :| TrimmedAt(s, r, a, IsHyphen);
    if r == [] {
      forall i | 0 <= i < |s| ensures s[i] == '-' {
        assert IsHyphen(s[i]);
      }
    } else {
      assert r[0] == s[a] && s[a] != '-';
    }
  }

  /** The name before the fallback: filtered, stripped of hyphens at both
      ends, then cut to 100 characters. */
  function CutName(task: string, isAlnum: char -> bool): string
    requires AgreesOnAscii(isAlnum)
  {
    var stripped := StripBy(NameChars(task, isAlnum), IsHyphen);
    if |stripped| > NameLimit then stripped[..NameLimit] else stripped
  }

  lemma {:induction false} CutNameShape(task: string, isAlnum: char -> bool)
    requires AgreesOnAscii(isAlnum)
    ensures var name := CutName(task, isAlnum);
      && |name| <= NameLimit
      && (name == [] <==> NoAlnum(task, isAlnum))
      && (forall i | 0 <= i < |name| :: NameChar(isAlnum, name[i]))
      && (name != [] ==> isAlnum(name[0]) && (name[|name| - 1] == '-' ==> |name| == NameLimit))
  {
    CutNameEmpty(task, isAlnum);
    CutNameChars(task, isAlnum);
  }

  lemma {:induction false} CutNameEmpty(task: string, isAlnum: char -> bool)
    requires AgreesOnAscii(isAlnum)
    ensures CutName(task, isAlnum) == [] <==> NoAlnum(task, isAlnum)
  {
    HyphenStripEmpty(NameChars(task, isAlnum));
    NameCharsAllHyphens(task, isAlnum);
  }

  lemma {:induction false} CutNameChars(task: string, isAlnum: char -> bool)
    requires AgreesOnAscii(isAlnum)
    ensures var name := CutName(task, isAlnum);
      && (forall i | 0 <= i < |name| :: NameChar(isAlnum, name[i]))
      && (name != [] ==> isAlnum(name[0]) && (name[|name| - 1] == '-' ==> |name| == NameLimit))
  {
    var kept := NameChars(task, isAlnum);
    var stripped := StripBy(kept, IsHyphen);
    assert CutName(task, isAlnum) == if |stripped| > NameLimit then stripped[..NameLimit] else stripped;
    CleanCut(kept, CutName(task, isAlnum), isAlnum);
  }

  lemma {:induction false} CleanCut(kept: string, name: string, isAlnum: char -> bool)
    requires AgreesOnAscii(isAlnum)
    requires forall i | 0 <= i < |kept| :: NameChar(isAlnum, kept[i])
    requires var stripped := StripBy(kept, IsHyphen);
      name == if |stripped| > NameLimit then stripped[..NameLimit] else stripped
    ensures forall i | 0 <= i < |name| :: NameChar(isAlnum, name[i])
    ensures name != [] ==> isAlnum(name[0]) && (name[|name| - 1] == '-' ==> |name| == NameLimit)
  {
    var stripped := StripBy(kept, IsHyphen);
    if stripped != [] {
      StrippedChars(kept, stripped, isAlnum);
    }
  }

  /** `sanitize_repo_name`. The strip happens before the cut to 100
      characters, so a name whose 100th character is a hyphen keeps it. */
  function SanitizeRepoName(task: string, stamp: string, isAlnum: char -> bool): (r: string)
    requires AgreesOnAscii(isAlnum) && IsStamp(stamp)
    ensures 0 < |r| <= NameLimit
    ensures forall i | 0 <= i < |r| :: NameChar(isAlnum, r[i])
    ensures r[0] != '-'
    ensures r[|r| - 1] == '-' ==> |r| == NameLimit
    ensures NoAlnum(task, isAlnum) ==> r == "task-" + stamp
    ensures !NoAlnum(task, isAlnum) ==> isAlnum(r[0])
  {
    var name := CutName(task, isAlnum);
    CutNameShape(task, isAlnum);
    StampIsName(stamp, isAlnum);
    if name == [] then "task-" + stamp else name
  }

  lemma {:induction false} StrippedChars(kept: string, stripped: string, isAlnum: char -> bool)
    requires AgreesOnAscii(isAlnum)
    requires forall i | 0 <= i < |kept| :: NameChar(isAlnum, kept[i])
    requires stripped == StripBy(kept, IsHyphen) && stripped != []
    ensures forall i | 0 <= i < |stripped| :: NameChar(isAlnum, stripped[i])
    ensures isAlnum(stripped[0])
  {
    var a :| TrimmedAt(kept, stripped, a, IsHyphen);
    TrimmedChars(kept, stripped, a, isAlnum);
  }

  /** A middle part of a string of name characters that does not start with
      a hyphen starts with an alphanumeric. */
  lemma {:induction false} TrimmedChars(kept: string, stripped: string, a: int, isAlnum: char -> bool)
    requires forall i | 0 <= i < |kept| :: NameChar(isAlnum, kept[i])
    requires TrimmedAt(kept, stripped, a, IsHyphen) && stripped != [] && stripped[0] != '-'
    ensures forall i | 0 <= i < |stripped| :: NameChar(isAlnum, stripped[i])
    ensures isAlnum(stripped[0])
  {
    forall i | 0 <= i < |stripped| ensures NameChar(isAlnum, stripped[i]) {
      assert stripped[i] == kept[a + i];
    }
  }

  /** The fallback name `task-<stamp>` is itself a clean name. */
  lemma {:induction false} StampIsName(stamp: string, isAlnum: char -> bool)
    requires AgreesOnAscii(isAlnum) && IsStamp(stamp)
    ensures forall i | 0 <= i < |"task-" + stamp| :: NameChar(isAlnum, ("task-" + stamp)[i])
    ensures isAlnum(("task-" + stamp)[0]) && ("task-" + stamp)[19] != '-'
  {
    var n := "task-" + stamp;
    forall i | 0 <= i < |n| ensures NameChar(isAlnum, n[i]) {
      if i >= 5 {
        assert n[i] == stamp[i - 5];
      }
    }
    assert n[19] == stamp[14];
  }

  /** Sanitising a name that does not end in a hyphen gives it back: the
      transformation is idempotent outside the truncation case. */
  lemma {:induction false} SanitizeIdempotent(task: string, stamp: string, stamp': string, isAlnum: char -> bool)
    requires AgreesOnAscii(isAlnum) && IsStamp(stamp) && IsStamp(stamp')
    requires var n := SanitizeRepoName(task, stamp, isAlnum); n[|n| - 1] != '-'
    ensures var n := SanitizeRepoName(task, stamp, isAlnum);
      SanitizeRepoName(n, stamp', isAlnum) == n
  {
    var n := SanitizeRepoName(task, stamp, isAlnum);
    NameCharsKeep(n, isAlnum);
    SanitizeClean(n, stamp', isAlnum);
  }

  /** A hundred-and-one character task whose 100th character is a hyphen:
      the first pass keeps the hyphen at the end of the cut, the second pass
      strips it, so sanitising twice differs from sanitising once. */
  lemma {:induction false} TrailingHyphenNotIdempotent(stamp: string, isAlnum: char -> bool)
    requires AgreesOnAscii(isAlnum) && IsStamp(stamp)
    ensures var t := seq(99, _ => 'a') + "-b";
      && SanitizeRepoName(t, stamp, isAlnum) == seq(99, _ => 'a') + "-"
      && SanitizeRepoName(SanitizeRepoName(t, stamp, isAlnum), stamp, isAlnum) == seq(99, _ => 'a')
  {
    var a99 := seq(99, _ => 'a');
    assert isAlnum('a');
    assert forall i | 0 <= i < |a99| :: isAlnum(a99[i]);
    CutKeepsHyphen(a99, stamp, isAlnum);
    TrailingHyphenStripped(a99, stamp, isAlnum);
  }

  /** Ninety-nine alphanumerics, a hyphen and one more: the cut to 100 ends on
      the hyphen. */
  lemma {:induction false} CutKeepsHyphen(s: string, stamp: string, isAlnum: char -> bool)
    requires AgreesOnAscii(isAlnum) && IsStamp(stamp)
    requires |s| == NameLimit - 1 && forall i | 0 <= i < |s| :: isAlnum(s[i])
    ensures SanitizeRepoName(s + "-b", stamp, isAlnum) == s + "-"
  {
    var t := s + "-b";
    assert isAlnum('b');
    forall i | 0 <= i < |t| ensures NameChar(isAlnum, t[i]) {
      if i < |s| { assert t[i] == s[i]; }
    }
    NameCharsKeep(t, isAlnum);
    assert t[0] == s[0] && t[|t| - 1] == 'b';
    StripByKeeps(t, IsHyphen);
    assert t[..NameLimit] == s + "-";
  }

  /** The same alphanumerics with only the trailing hyphen: the hyphen is
      stripped. */
  lemma {:induction false} TrailingHyphenStripped(s: string, stamp: string, isAlnum: char -> bool)
    requires AgreesOnAscii(isAlnum) && IsStamp(stamp)
    requires |s| == NameLimit - 1 && forall i | 0 <= i < |s| :: isAlnum(s[i])
    ensures SanitizeRepoName(s + "-", stamp, isAlnum) == s
  {
    var once := s + "-";
    forall i | 0 <= i < |once| ensures NameChar(isAlnum, once[i]) {
      if i < |s| { assert once[i] == s[i]; }
    }
    NameCharsKeep(once, isAlnum);
    assert !isAlnum('-');
    HyphenTail(s);
  }

  lemma {:induction false} HyphenTail(s: string)
    requires s != [] && s[0] != '-' && s[|s| - 1] != '-'
    ensures StripBy(s + "-", IsHyphen) == s
  {
    var t := s + "-";
    assert t[0] == s[0];
    assert StripLeft(t, IsHyphen) == t;
    assert t[..|t| - 1] == s;
    assert StripRight(s, IsHyphen) == s;
    assert StripRight(t, IsHyphen) == s;
  }

  /** Runs of hyphens are kept: two spaces become two hyphens. */
  lemma {:induction false} HyphensNotCollapsed(stamp: string, isAlnum: char -> bool)
    requires AgreesOnAscii(isAlnum) && IsStamp(stamp)
    ensures SanitizeRepoName("a  b", stamp, isAlnum) == "a--b"
  {
    assert isAlnum('a') && isAlnum('b') && !isAlnum(' ');
    assert NameChars("a  b", isAlnum) == "a--b";
    SanitizeClean("a  b", stamp, isAlnum);
  }

  /** A task whose filtered characters already form a clean name of at most
      100 characters is named by exactly those characters. */
  lemma {:induction false} SanitizeClean(task: string, stamp: string, isAlnum: char -> bool)
    requires AgreesOnAscii(isAlnum) && IsStamp(stamp)
    requires var k := NameChars(task, isAlnum); 0 < |k| <= NameLimit && k[0] != '-' && k[|k| - 1] != '-'
    ensures SanitizeRepoName(task, stamp, isAlnum) == NameChars(task, isAlnum)
  {
    StripByKeeps(NameChars(task, isAlnum), IsHyphen);
  }

  lemma {:induction false} ClockAppChars(isAlnum: char -> bool) returns (task: string)
    requires AgreesOnAscii(isAlnum)
    ensures task == "Clock" + " " + "App" + "!"
    ensures NameChars(task, isAlnum) == "Clock-App"
  {
    var clock, space, app, bang := "Clock", " ", "App", "!";
    AsciiWordKept(clock, isAlnum);
    AsciiWordKept(app, isAlnum);
    assert !isAlnum(' ') && !isAlnum('!');
    assert NameChars(space, isAlnum) == "-";
    assert NameChars(bang, isAlnum) == "";
    NameCharsAppend(clock, space, isAlnum);
    NameCharsAppend(clock + space, app, isAlnum);
    NameCharsAppend(clock + space + app, bang, isAlnum);
    ClockAppSpelled();
    task := clock + space + app + bang;
  }

  lemma {:induction false} ClockAppSpelled()
    ensures "Clock" + "-" + "App" + "" == "Clock-App"
  {
  }

  /** A word of ASCII letters and digits passes the filter unchanged. */
  lemma {:induction false} AsciiWordKept(w: string, isAlnum: char -> bool)
    requires AgreesOnAscii(isAlnum)
    requires forall i | 0 <= i < |w| :: AsciiAlnum(w[i])
    ensures NameChars(w, isAlnum) == w
  {
    forall i | 0 <= i < |w| ensures NameChar(isAlnum, w[i]) {
      assert isAlnum(w[i]) == AsciiAlnum(w[i]);
    }
    NameCharsKeep(w, isAlnum);
  }

  /** Punctuation is dropped and the space becomes a hyphen. */
  lemma {:induction false} ClockAppExample(task: string, stamp: string, isAlnum: char -> bool)
    requires AgreesOnAscii(isAlnum) && IsStamp(stamp)
    requires task == "Clock App!"
    ensures SanitizeRepoName(task, stamp, isAlnum) == "Clock-App"
  {
    var t := ClockAppChars(isAlnum);
    assert t == task;
    SanitizeClean(t, stamp, isAlnum);
  }

  /** The repository description: the first 100 characters of the brief, with
      no filtering of control characters. */
  function RepoDescription(brief: string): (r: string)
    ensures StartsWith(r, DescriptionLead)
    ensures |r| == |DescriptionLead| + (if |brief| < DescriptionLimit then |brief| else DescriptionLimit)
    ensures forall i | 0 <= i < |r| - |DescriptionLead| :: r[|DescriptionLead| + i] == brief[i]
  {
    DescriptionLead + Slice(brief, 0, DescriptionLimit)
  }

  /** A newline, tab or NUL among the first 100 characters of the brief
      reaches the description unchanged. */
  lemma {:induction false} ControlCharactersKept(brief: string, i: nat)
    requires i < |brief| && i < DescriptionLimit && brief[i] < ' '
    ensures RepoDescription(brief)[|DescriptionLead| + i] == brief[i]
    ensures Contains(RepoDescription(brief), [brief[i]])
  {
    var r := RepoDescription(brief);
    var k := |DescriptionLead| + i;
    assert r[k..k + 1] == [brief[i]];
    assert OccursAt(r, [brief[i]], k);
  }

  /** The `- check` lines of `generate_readme`, or the placeholder. */
  function ReadmeChecks(checks: seq<JValue>): (r: string)
    ensures |checks| == 0 <==> r == NoChecks
  {
    if |checks| == 0 then NoChecks
    else
      var r := Join("\n", CodeGenerator.CheckBullets(checks));
      ReadmeChecksStartWithBullet(checks);
      r
  }

  lemma {:induction false} ReadmeChecksStartWithBullet(checks: seq<JValue>)
    requires |checks| > 0
    ensures var r := Join("\n", CodeGenerator.CheckBullets(checks)); |r| >= 2 && r[0] == '-'
  {
    var bullets := CodeGenerator.CheckBullets(checks);
    assert bullets[0] == "- " + Str(checks[0]);
    if |bullets| > 1 {
      assert Join("\n", bullets) == bullets[0] + "\n" + Join("\n", bullets[1..]);
    }
  }

  /** Stand-ins for the fixed prose of the generated README and licence. */
  const ReadmeHead := "# Generated Application\n\n## Summary\n<summary>\n\n**Brief:** "
  const ReadmeFeatures := "\n\n## Features\nThis application implements the following requirements:\n"
  const ReadmeMiddle := "\n\n## Setup\n<setup, usage, stack, code and deployment sections>\n\n## License\n"
  const LicenseHead := "MIT License\n\nCopyright (c) "
  const PermissionNotice := "\n\n<MIT permission notice>\n"
  const ReadmeFooter := "\n---\n\n*Generated by LLM Code Deployment System on "

  /** `get_mit_license`. */
  function MitLicense(year: nat): (r: string)
    ensures StartsWith(r, LicenseHead)
    ensures Contains(r, NatToString(year))
  {
    var y := NatToString(year);
    ContainsSelf(y);
    ContainsInfix(LicenseHead, y, PermissionNotice, y);
    LicenseHead + y + PermissionNotice
  }

  /** `generate_readme`. */
  function GenerateReadme(brief: string, checks: seq<JValue>, clock: Clock): (r: string)
    ensures Contains(r, brief)
    ensures Contains(r, ReadmeChecks(checks))
  {
    var checksText := ReadmeChecks(checks);
    var tail := ReadmeMiddle + MitLicense(clock.year) + ReadmeFooter + clock.footerStamp + " UTC*\n";
    ReadmeEmbeds(ReadmeHead, brief, ReadmeFeatures, checksText, tail);
    ReadmeHead + brief + ReadmeFeatures + checksText + tail
  }

  lemma {:induction false} ReadmeEmbeds(a: string, brief: string, b: string, checks: string, c: string)
    ensures Contains(a + brief + b + checks + c, brief)
    ensures Contains(a + brief + b + checks + c, checks)
  {
    ContainsSelf(brief);
    ContainsInfix(a, brief, b + checks + c, brief);
    assert a + brief + (b + checks + c) == a + brief + b + checks + c;
    ContainsSelf(checks);
    ContainsInfix(a + brief + b, checks, c, checks);
  }

  /** Every check appears in the README as a `- check` line. */
  lemma {:induction false} ReadmeListsChecks(brief: string, checks: seq<JValue>, clock: Clock, k: nat)
    requires k < |checks|
    ensures Contains(GenerateReadme(brief, checks, clock), "- " + Str(checks[k]))
  {
    var bullets := CodeGenerator.CheckBullets(checks);
    assert bullets[k] == "- " + Str(checks[k]);
    JoinContainsParts("\n", bullets, k);
    ContainsTrans(GenerateReadme(brief, checks, clock), ReadmeChecks(checks), bullets[k]);
  }

  /** The files `push_files_to_repo` writes into the clone. Note that the
      fallback README is computed whether or not it is used. */
  function FilesToPush(appCode: CodeGenerator.Files, brief: string, checks: seq<JValue>, clock: Clock)
    : (r: CodeGenerator.Files)
    ensures r.Keys == {CodeGenerator.ReadmeMd, License}
      + (if CodeGenerator.IndexHtml in appCode && appCode[CodeGenerator.IndexHtml] != ""
         then {CodeGenerator.IndexHtml} else {})
    ensures CodeGenerator.IndexHtml in r ==> r[CodeGenerator.IndexHtml] == appCode[CodeGenerator.IndexHtml]
    ensures r[CodeGenerator.ReadmeMd] == if CodeGenerator.ReadmeMd in appCode
      then appCode[CodeGenerator.ReadmeMd] else GenerateReadme(brief, checks, clock)
    ensures r[License] == MitLicense(clock.year)
  {
    var fallback := GenerateReadme(brief, checks, clock);
    var index := if CodeGenerator.IndexHtml in appCode && appCode[CodeGenerator.IndexHtml] != ""
      then map[CodeGenerator.IndexHtml := appCode[CodeGenerator.IndexHtml]] else map[];
    var readme := if CodeGenerator.ReadmeMd in appCode then appCode[CodeGenerator.ReadmeMd] else fallback;
    index[CodeGenerator.ReadmeMd := readme][License := MitLicense(clock.year)]
  }

  /** An empty README from the generator is committed empty: the fallback
      only replaces a missing key. */
  lemma {:induction false} EmptyReadmeWrittenAsIs(appCode: CodeGenerator.Files, brief: string, checks: seq<JValue>, clock: Clock)
    requires CodeGenerator.ReadmeMd in appCode && appCode[CodeGenerator.ReadmeMd] == ""
    ensures FilesToPush(appCode, brief, checks, clock)[CodeGenerator.ReadmeMd] == ""
  {
  }

  /** `https://{GITHUB_USERNAME}.github.io/{repo.name}/`. */
  function PagesUrl(username: string, repoName: string): (r: string)
    ensures StartsWith(r, "https://") && r[|r| - 1] == '/'
    ensures StartsWith(r, "https://" + username + ".github.io/")
    ensures Contains(r, repoName)
  {
    var host := "https://" + username + ".github.io/";
    var r := host + repoName + "/";
    assert r[..|host|] == host;
    assert r[..8] == host[..8];
    ContainsSelf(repoName);
    ContainsInfix(host, repoName, "/", repoName);
    r
  }

  /** Under one user, different repositories get different Pages URLs: the
      repository name is read back from the URL after the host. */
  lemma {:induction false} PagesUrlInjective(username: string, a: string, b: string)
    requires PagesUrl(username, a) == PagesUrl(username, b)
    ensures a == b
  {
    var host := "https://" + username + ".github.io/";
    var r := PagesUrl(username, a);
    assert r[|host|..|host| + |a|] == a;
    assert r[|host|..|host| + |b|] == b;
  }

  /** What the Pages request gave: a status code, or an exception. */
  datatype PagesReply = PagesStatus(code: int) | PagesRaised(message: string)

  /** `enable_github_pages`: every outcome of the request, whether 201, 204,
      409, another status or an exception, yields the same URL. */
  function EnableGithubPages(username: string, repoName: string, reply: PagesReply): (r: string)
    ensures StartsWith(r, "https://") && Contains(r, repoName)
  {
    match reply
    case PagesStatus(code) =>
      if code == 201 || code == 204 then PagesUrl(username, repoName)
      else if code == 409 then PagesUrl(username, repoName)
      else PagesUrl(username, repoName)
    case PagesRaised(_) => PagesUrl(username, repoName)
  }

  /** The Pages URL does not depend on the API's answer. */
  lemma {:induction false} PagesUrlIgnoresReply(username: string, repoName: string, a: PagesReply, b: PagesReply)
    ensures EnableGithubPages(username, repoName, a) == EnableGithubPages(username, repoName, b)
    ensures EnableGithubPages(username, repoName, a) == PagesUrl(username, repoName)
  {
  }

  /** A repository as GitHub reports it after creation. */
  datatype Repo = Repo(name: string, htmlUrl: string)

  /** The GitHub side: creating a repository from a name and a description,
      pushing files (answering the `git rev-parse HEAD` output) and the Pages
      request. Each may fail with the exception's message. */
  datatype Hub = Hub(
    createRepo: (string, string) -> Result<Repo>,
    push: (Repo, CodeGenerator.Files) -> Result<string>,
    pages: Repo -> PagesReply)

  datatype Config = Config(token: string, username: string)

  /** The dictionary `create_and_deploy_repo` returns. */
  datatype Published = Published(repoUrl: string, commitSha: string, pagesUrl: string)

  /** `create_and_deploy_repo`. */
  function CreateAndDeployRepo(task: string, appCode: CodeGenerator.Files, brief: string,
                               checks: seq<JValue>, config: Config, hub: Hub, clock: Clock,
                               isAlnum: char -> bool): (r: Result<Published>)
    requires AgreesOnAscii(isAlnum) && IsStamp(clock.nameStamp)
    ensures config.token == "" ==> r == Err(TokenMissing)
    ensures config.token != "" && config.username == "" ==> r == Err(UsernameMissing)
    ensures config.token != "" && config.username != ""
        && hub.createRepo(SanitizeRepoName(task, clock.nameStamp, isAlnum), RepoDescription(brief)).Err?
      ==> r == Err(hub.createRepo(SanitizeRepoName(task, clock.nameStamp, isAlnum), RepoDescription(brief)).error)
    ensures config.token != "" && config.username != ""
        && hub.createRepo(SanitizeRepoName(task, clock.nameStamp, isAlnum), RepoDescription(brief)).Ok?
      ==> var repo := hub.createRepo(SanitizeRepoName(task, clock.nameStamp, isAlnum), RepoDescription(brief)).value;
          var push := hub.push(repo, FilesToPush(appCode, brief, checks, clock));
          push.Err? ==> r == Err(push.error)
    ensures r.Ok? <==>
      && config.token != "" && config.username != ""
      && hub.createRepo(SanitizeRepoName(task, clock.nameStamp, isAlnum), RepoDescription(brief)).Ok?
      && var repo := hub.createRepo(SanitizeRepoName(task, clock.nameStamp, isAlnum), RepoDescription(brief)).value;
         hub.push(repo, FilesToPush(appCode, brief, checks, clock)).Ok?
    ensures r.Ok? ==>
      var repo := hub.createRepo(SanitizeRepoName(task, clock.nameStamp, isAlnum), RepoDescription(brief)).value;
      && r.value.repoUrl == repo.htmlUrl
      && r.value.commitSha == Strip(hub.push(repo, FilesToPush(appCode, brief, checks, clock)).value)
      && r.value.pagesUrl == PagesUrl(config.username, repo.name)
  {
    if config.token == "" then Err(TokenMissing)
    else if config.username == "" then Err(UsernameMissing)
    else
      var name := SanitizeRepoName(task, clock.nameStamp, isAlnum);
      match hub.createRepo(name, RepoDescription(brief))
      case Err(e) => Err(e)
      case Ok(repo) =>
        match hub.push(repo, FilesToPush(appCode, brief, checks, clock))
        case Err(e) => Err(e)
        case Ok(stdout) =>
          var pagesUrl := EnableGithubPages(config.username, repo.name, hub.pages(repo));
          PagesUrlIgnoresReply(config.username, repo.name, hub.pages(repo), hub.pages(repo));
          Ok(Published(repo.htmlUrl, Strip(stdout), pagesUrl))
  }
}

=== FILE: json.dfy ===
/** The JSON values a request payload is parsed into, seen the way Python sees
    them once `request.get_json()` has decoded them: `None`, `bool`, `int`,
    `float`, `str`, `list` and `dict`. */
module Json {
  import opened PyStr

  datatype JValue =
    | JNull
    | JBool(b: bool)
    | JInt(i: int)
    | JFloat(f: real)
    | JStr(s: string)
    | JList(items: seq<JValue>)
    | JObj(fields: map<string, JValue>)

  /** Python truthiness (`if value:`). */
  predicate Truthy(v: JValue) {
    match v
    case JNull => false
    case JBool(b) => b
    case JInt(i) => i != 0
    case JFloat(f) => f != 0.0
    case JStr(s) => |s| > 0
    case JList(items) => |items| > 0
    case JObj(fields) => |fields| > 0
  }

  /** The name Python reports for the value's type in error messages. */
  function TypeName(v: JValue): string {
    match v
    case JNull => "NoneType"
    case JBool(_) => "bool"
    case JInt(_) => "int"
    case JFloat(_) => "float"
    case JStr(_) => "str"
    case JList(_) => "list"
    case JObj(_) => "dict"
  }

  /** The text of the `AttributeError` raised by looking up method `attr`
      on a value whose type has no such method. */
  function NoAttribute(v: JValue, attr: string): string {
    "'" + TypeName(v) + "' object has no attribute '" + attr + "'"
  }

  /** `isinstance(v, int)`: in Python a `bool` is an `int`. */
  predicate IsPyInt(v: JValue) {
    v.JInt? || v.JBool?
  }

  /** The integer value of an `int` or `bool` (`True` is 1, `False` is 0). */
  function PyIntValue(v: JValue): int
    requires IsPyInt(v)
  {
    if v.JBool? then (if v.b then 1 else 0) else v.i
  }

  /** Python's `str(v)` as used by an f-string. Exact for `None`, booleans,
      integers and strings; a float, list or dict is rendered by a fixed
      stand-in text. */
  function Str(v: JValue): string {
    match v
    case JNull => "None"
    case JBool(b) => if b then "True" else "False"
    case JInt(i) => IntToString(i)
    case JFloat(_) => "<float>"
    case JStr(s) => s
    case JList(_) => "[...]"
    case JObj(_) => "{...}"
  }
}

=== FILE: pystr.dfy ===
/** The handful of Python `str` operations the pipeline relies on, with Python's
    exact semantics: `in`, `find` (which answers -1 on a miss), slicing with
    negative and out-of-range bounds, `strip`, `startswith`, `join` and `str()`
    of an integer. */
module PyStr {

  /** Python's `str.isspace()` for one character. */
  predicate IsSpace(c: char) {
    || c == ' '
    || ('\t' <= c <= '\r')
    || ('\U{1c}' <= c <= '\U{1f}')
    || c == '\U{85}' || c == '\U{a0}' || c == '\U{1680}'
    || ('\U{2000}' <= c <= '\U{200a}')
    || c == '\U{2028}' || c == '\U{2029}' || c == '\U{202f}' || c == '\U{205f}' || c == '\U{3000}'
  }

  predicate IsHyphen(c: char) {
    c == '-'
  }

  /** `sub` occurs in `s` starting at index `i`. */
  predicate OccursAt(s: string, sub: string, i: int) {
    0 <= i && i + |sub| <= |s| && s[i..i + |sub|] == sub
  }

  /** Python's `sub in s`. */
  predicate Contains(s: string, sub: string) {
    exists i | 0 <= i <= |s| - |sub| :: OccursAt(s, sub, i)
  }

  /** Python's `s.find(sub, start)`: the first index at or after `start` where
      `sub` occurs, or -1 when there is none. */
  function Find(s: string, sub: string, start: nat): (r: int)
    ensures -1 <= r
    ensures r >= 0 ==> start <= r && OccursAt(s, sub, r)
    ensures forall i | start <= i && (r < 0 || i < r) :: !OccursAt(s, sub, i)
    decreases |s| - start
  {
    if start + |sub| > |s| then -1
    else if s[start..start + |sub|] == sub then start
    else Find(s, sub, start + 1)
  }

  /** `find` from the start succeeds exactly when `in` holds. */
  lemma {:induction false} FindAgreesWithContains(s: string, sub: string)
    ensures Find(s, sub, 0) >= 0 <==> Contains(s, sub)
  {
    var r := Find(s, sub, 0);
    if Contains(s, sub) {
      var i :| 0 <= i <= |s| - |sub| && OccursAt(s, sub, i);
      assert r >= 0;
    }
  }

  /** When `sub` occurs at `k` and nowhere in `[start, k)`, `find` answers `k`. */
  lemma {:induction false} FindIsFirst(s: string, sub: string, start: nat, k: nat)
    requires start <= k && OccursAt(s, sub, k)
    requires forall i | start <= i < k :: !OccursAt(s, sub, i)
    ensures Find(s, sub, start) == k
  {
  }

  /** When `sub` occurs nowhere from `start` on, `find` answers -1. */
  lemma {:induction false} FindMisses(s: string, sub: string, start: nat)
    requires forall i | start <= i <= |s| - |sub| :: !OccursAt(s, sub, i)
    ensures Find(s, sub, start) == -1
  {
  }

  /** A string that `rest` starts with occurs in `pre + rest` right after `pre`. */
  lemma {:induction false} OccursAfterPrefix(pre: string, rest: string, sub: string)
    requires StartsWith(rest, sub)
    ensures OccursAt(pre + rest, sub, |pre|)
  {
    assert (pre + rest)[|pre|..|pre| + |sub|] == rest[..|sub|];
  }

  /** When `rest` starts with `sub` and no character of `pre` from `start` on
      is the first character of `sub`, `find` lands right after `pre`. */
  lemma {:induction false} FindAfterPrefix(pre: string, rest: string, sub: string, start: nat)
    requires |sub| > 0 && start <= |pre| && StartsWith(rest, sub)
    requires forall i | start <= i < |pre| :: pre[i] != sub[0]
    ensures Find(pre + rest, sub, start) == |pre|
  {
    var s := pre + rest;
    OccursAfterPrefix(pre, rest, sub);
    forall i | start <= i < |pre| ensures !OccursAt(s, sub, i) {
      assert s[i] == pre[i];
      Mismatch(s, sub, i, 0);
    }
    FindIsFirst(s, sub, start, |pre|);
  }

  /** When no character of `s` from `start` on is the first character of
      `sub`, `find` answers -1. */
  lemma {:induction false} FindNoFirstChar(s: string, sub: string, start: nat)
    requires |sub| > 0
    requires forall i | start <= i < |s| :: s[i] != sub[0]
    ensures Find(s, sub, start) == -1
  {
    forall i | start <= i <= |s| - |sub| ensures !OccursAt(s, sub, i) {
      Mismatch(s, sub, i, 0);
    }
    FindMisses(s, sub, start);
  }

  /** When `sub` is not in `s`, `find` answers -1 from any start. */
  lemma {:induction false} NotContainedNotFound(s: string, sub: string, start: nat)
    requires !Contains(s, sub)
    ensures Find(s, sub, start) == -1
  {
    forall i | start <= i <= |s| - |sub| ensures !OccursAt(s, sub, i) {
      assert 0 <= i <= |s| - |sub|;
    }
    FindMisses(s, sub, start);
  }

  /** A single mismatching character rules out an occurrence at `i`. */
  lemma {:induction false} Mismatch(s: string, sub: string, i: int, j: int)
    requires 0 <= j < |sub| && 0 <= i && i + j < |s| && s[i + j] != sub[j]
    ensures !OccursAt(s, sub, i)
  {
    if i + |sub| <= |s| {
      assert s[i..i + |sub|][j] == s[i + j];
    }
  }

  /** An occurrence that lies inside the middle part of `pre + s + post` is an
      occurrence in `s`, and conversely. */
  lemma {:induction false} OccursInside(pre: string, s: string, post: string, sub: string, i: int)
    requires 0 <= i && i + |sub| <= |s|
    ensures OccursAt(pre + s + post, sub, |pre| + i) <==> OccursAt(s, sub, i)
  {
    var t := pre + s + post;
    assert t[|pre| + i..|pre| + i + |sub|] == s[i..i + |sub|];
  }

  /** A string contains itself. */
  lemma {:induction false} ContainsSelf(s: string)
    ensures Contains(s, s)
  {
    assert OccursAt(s, s, 0);
  }

  /** Whatever occurs in `mid` also occurs in `pre + mid + post`. */
  lemma {:induction false} ContainsInfix(pre: string, mid: string, post: string, sub: string)
    requires Contains(mid, sub)
    ensures Contains(pre + mid + post, sub)
  {
    var i :| 0 <= i <= |mid| - |sub| && OccursAt(mid, sub, i);
    var s := pre + mid + post;
    assert s[|pre| + i..|pre| + i + |sub|] == mid[i..i + |sub|];
    assert OccursAt(s, sub, |pre| + i);
  }

  /** What occurs in `b` occurs in `a + b`. */
  lemma {:induction false} ContainsBack(a: string, b: string, sub: string)
    requires Contains(b, sub)
    ensures Contains(a + b, sub)
  {
    ContainsInfix(a, b, "", sub);
    assert a + b + "" == a + b;
  }

  /** Containment is transitive. */
  lemma {:induction false} ContainsTrans(s: string, t: string, u: string)
    requires Contains(s, t) && Contains(t, u)
    ensures Contains(s, u)
  {
    var i :| 0 <= i <= |s| - |t| && OccursAt(s, t, i);
    var j :| 0 <= j <= |t| - |u| && OccursAt(t, u, j);
    assert s[i..i + |t|] == t;
    forall k | 0 <= k < |u| ensures s[i + j + k] == u[k] {
      assert s[i..i + |t|][j + k] == s[i + j + k];
      assert t[j..j + |u|][k] == t[j + k];
    }
    assert s[i + j..i + j + |u|] == u;
    assert OccursAt(s, u, i + j);
  }

  /** A string that does not contain the character `c` has no occurrence of
      any string that contains `c`. */
  lemma {:induction false} NoOccurrenceWithoutChar(s: string, sub: string, c: char, i: int)
    requires c !in s && c in sub
    ensures !OccursAt(s, sub, i)
  {
  }

  /** Python's index normalisation for slice bounds. */
  function SliceBound(i: int, n: nat): (r: nat)
    ensures r <= n
    ensures 0 <= i <= n ==> r == i
    ensures -(n as int) <= i < 0 ==> r == i + n
  {
    if i < 0 then (if i + n < 0 then 0 else i + n)
    else if i > n then n
    else i
  }

  /** Python's `s[a:b]`. */
  function Slice(s: string, a: int, b: int): (r: string)
    ensures |r| <= |s|
    ensures 0 <= a <= b <= |s| ==> r == s[a..b]
    ensures 0 <= b <= a ==> r == []
  {
    var lo := SliceBound(a, |s|);
    var hi := SliceBound(b, |s|);
    if lo < hi then s[lo..hi] else []
  }

  /** Python's `s[a:-1]`: everything from `a` but the last character. */
  lemma {:induction false} SliceToLast(s: string, a: nat)
    requires a <= |s|
    ensures Slice(s, a, -1) == if a < |s| then s[a..|s| - 1] else []
  {
  }

  /** The groupings of a five-part concatenation the proofs about replies
      need. */
  lemma {:induction false} Regroup(a: string, b: string, c: string, d: string, e: string)
    ensures a + b + c + d + e == a + (b + c + d + e)
    ensures a + b + c + d + e == a + (b + c + d) + e
    ensures a + b + c + d + e == (a + b) + (c + d) + e
    ensures a + b + c + d + e == (a + b + c) + (d + e)
  {
  }

  /** `a + b + c` grouped to the right. */
  lemma {:induction false} Regroup3(a: string, b: string, c: string)
    ensures a + b + c == a + (b + c)
  {
  }

  /** The middle part of `pre + mid + post`, sliced out by its bounds. */
  lemma {:induction false} SliceInfix(s: string, pre: string, mid: string, post: string)
    requires s == pre + mid + post
    ensures Slice(s, |pre|, |pre| + |mid|) == mid
  {
    assert s[|pre|..|pre| + |mid|] == mid;
  }

  /** The first `k` characters of `pre + rest` come from `pre`. */
  lemma {:induction false} SliceOfPrefix(s: string, pre: string, rest: string, k: nat)
    requires s == pre + rest && k <= |pre|
    ensures Slice(s, 0, k) == pre[..k]
  {
    assert s[0..k] == pre[..k];
  }

  /** `s[len(head):-1]` on `s == head + rest`: the rest without its last
      character. */
  lemma {:induction false} SliceTailToLast(s: string, head: string, rest: string)
    requires s == head + rest
    ensures Slice(s, |head|, -1) == if rest == [] then [] else rest[..|rest| - 1]
  {
    SliceToLast(s, |head|);
    if rest != [] {
      assert s[|head|..|s| - 1] == rest[..|rest| - 1];
    }
  }

  /** Python's `s.startswith(prefix)`. */
  predicate StartsWith(s: string, prefix: string) {
    |prefix| <= |s| && s[..|prefix|] == prefix
  }

  /** Drops characters satisfying `drop` from the front. */
  function StripLeft(s: string, drop: char -> bool): (r: string)
    ensures |r| <= |s| && r == s[|s| - |r|..]
    ensures forall i | 0 <= i < |s| - |r| :: drop(s[i])
    ensures r == [] || !drop(r[0])
  {
    if |s| > 0 && drop(s[0]) then StripLeft(s[1..], drop) else s
  }

  /** Drops characters satisfying `drop` from the back. */
  function StripRight(s: string, drop: char -> bool): (r: string)
    ensures |r| <= |s| && r == s[..|r|]
    ensures forall i | |r| <= i < |s| :: drop(s[i])
    ensures r == [] || !drop(r[|r| - 1])
  {
    if |s| > 0 && drop(s[|s| - 1]) then StripRight(s[..|s| - 1], drop) else s
  }

  /** `r` is `s` with a prefix of length `a` and some suffix removed, and every
      removed character satisfies `drop`. */
  predicate TrimmedAt(s: string, r: string, a: int, drop: char -> bool) {
    && 0 <= a <= |s| - |r|
    && r == s[a..a + |r|]
    && (forall i | 0 <= i < a :: drop(s[i]))
    && (forall i | a + |r| <= i < |s| :: drop(s[i]))
  }

  /** Python's `s.strip(chars)`: the longest middle part of `s` whose ends do
      not satisfy `drop`. */
  function StripBy(s: string, drop: char -> bool): (r: string)
    ensures |r| <= |s|
    ensures exists a :: TrimmedAt(s, r, a, drop)
    ensures r == [] || (!drop(r[0]) && !drop(r[|r| - 1]))
  {
    var l := StripLeft(s, drop);
    var r := StripRight(l, drop);
    var a := |s| - |l|;
    assert TrimmedAt(s, r, a, drop);
    r
  }

  /** Stripping changes nothing when neither end can be dropped. */
  lemma {:induction false} StripByKeeps(s: string, drop: char -> bool)
    requires s == [] || (!drop(s[0]) && !drop(s[|s| - 1]))
    ensures StripBy(s, drop) == s
  {
  }

  /** Python's `s.strip()`. */
  function Strip(s: string): (r: string)
    ensures |r| <= |s|
    ensures exists a :: TrimmedAt(s, r, a, IsSpace)
    ensures r == [] || (!IsSpace(r[0]) && !IsSpace(r[|r| - 1]))
  {
    StripBy(s, IsSpace)
  }

  /** Python's `sep.join(parts)`. */
  function Join(sep: string, parts: seq<string>): (r: string)
    ensures |parts| == 0 ==> r == []
    ensures |parts| == 1 ==> r == parts[0]
  {
    if |parts| == 0 then []
    else if |parts| == 1 then parts[0]
    else parts[0] + sep + Join(sep, parts[1..])
  }

  /** Every part of a join occurs in the joined string. */
  lemma {:induction false} JoinContainsParts(sep: string, parts: seq<string>, k: nat)
    requires k < |parts|
    ensures Contains(Join(sep, parts), parts[k])
  {
    if |parts| == 1 {
      ContainsSelf(parts[0]);
    } else if k == 0 {
      ContainsSelf(parts[0]);
      ContainsInfix([], parts[0], sep + Join(sep, parts[1..]), parts[0]);
      assert [] + parts[0] + (sep + Join(sep, parts[1..])) == Join(sep, parts);
    } else {
      JoinContainsParts(sep, parts[1..], k - 1);
      ContainsInfix(parts[0] + sep, Join(sep, parts[1..]), [], parts[k]);
      assert (parts[0] + sep) + Join(sep, parts[1..]) + [] == Join(sep, parts);
    }
  }

  /** The part of `s` before the first `c` (all of `s` when there is none):
      Python's `s.split(c)[0]`. */
  function TakeUntil(s: string, c: char): (r: string)
    ensures c !in r
    ensures StartsWith(s, r)
    ensures |r| < |s| ==> s[|r|] == c
  {
    if |s| == 0 || s[0] == c then [] else [s[0]] + TakeUntil(s[1..], c)
  }

  /** The part of `s` after the last `c` (all of `s` when there is none):
      Python's `s.split(c)[-1]`. */
  function AfterLast(s: string, c: char): (r: string)
    ensures c !in r
    ensures |r| <= |s| && r == s[|s| - |r|..]
    ensures |r| < |s| ==> s[|s| - |r| - 1] == c
  {
    if |s| == 0 then []
    else if s[|s| - 1] == c then []
    else AfterLast(s[..|s| - 1], c) + [s[|s| - 1]]
  }

  function DigitChar(d: nat): char
    requires d < 10
  {
    "0123456789"[d]
  }

  /** Python's `str(n)` for a natural number. */
  function NatToString(n: nat): (r: string)
    ensures |r| > 0
    ensures forall i | 0 <= i < |r| :: '0' <= r[i] <= '9'
  {
    if n < 10 then [DigitChar(n)] else NatToString(n / 10) + [DigitChar(n % 10)]
  }

  /** Python's `str(i)` for an integer. */
  function IntToString(i: int): (r: string)
    ensures |r| > 0
  {
    if i < 0 then "-" + NatToString(-i) else NatToString(i)
  }
}

=== FILE: validator.dfy ===
/** Request validation (`validate_request`) and shared-secret verification
    (`verify_secret`). Validation is an ordered sequence of early-return checks
    over the JSON payload; the first failing check decides the message. */
module Validator {
  import opened Base
  import opened PyStr
  import opened Json

  /** A decoded JSON object: field name to value. */
  type Payload = map<string, JValue>

  /** The required fields, in the order the "missing" message lists them. */
  const RequiredFields: seq<string> :=
    ["email", "secret", "task", "round", "nonce", "brief", "evaluation_url"]

  const MissingPrefix := "Missing required fields: "
  const EmailMessage := "Invalid email format"
  const RoundMessage := "Round must be a positive integer"
  const TaskMessage := "Task must be a non-empty string"
  const NonceMessage := "Nonce must be a non-empty string"
  const BriefMessage := "Brief must be a non-empty string"
  const UrlMessage := "Evaluation URL must be a valid HTTP(S) URL"
  const ChecksMessage := "Checks must be a list"
  const AttachmentsMessage := "Attachments must be a list"

  /** What `validate_request` does: return `(True, "")`, return
      `(False, message)`, or raise (only the email check can raise, when the
      email is not a string). */
  datatype Verdict = Valid | Invalid(message: string) | Raises(message: string)

  /** `xs` is `ys` with some elements left out, order kept. */
  predicate IsSubsequence<T(==)>(xs: seq<T>, ys: seq<T>)
    decreases |ys|
  {
    if |xs| == 0 then true
    else if |ys| == 0 then false
    else if xs[0] == ys[0] then IsSubsequence(xs[1..], ys[1..])
    else IsSubsequence(xs, ys[1..])
  }

  /** The fields of `fields` that `payload` lacks, in the order of `fields`. */
  function MissingFrom(fields: seq<string>, payload: Payload): (r: seq<string>)
    ensures forall f :: f in r <==> f in fields && f !in payload
    ensures IsSubsequence(r, fields)
  {
    if |fields| == 0 then []
    else
      var rest := MissingFrom(fields[1..], payload);
      assert forall f :: f in fields <==> f == fields[0] || f in fields[1..];
      if fields[0] in payload then
        SubsequenceSkip(rest, fields);
        rest
      else [fields[0]] + rest
  }

  lemma {:induction false} SubsequenceSkip<T>(xs: seq<T>, ys: seq<T>)
    requires |ys| > 0 && IsSubsequence(xs, ys[1..])
    ensures IsSubsequence(xs, ys)
    decreases |xs| + |ys|
  {
    if |xs| > 0 && xs[0] == ys[0] {
      SubsequenceDrop(xs, ys[1..]);
    }
  }

  lemma {:induction false} SubsequenceDrop<T>(xs: seq<T>, ys: seq<T>)
    requires |xs| > 0 && IsSubsequence(xs, ys)
    ensures IsSubsequence(xs[1..], ys)
    decreases |xs| + |ys|
  {
    if |xs| > 1 {
      if xs[0] != ys[0] {
        SubsequenceDrop(xs, ys[1..]);
      }
      SubsequenceSkip(xs[1..], ys);
    }
  }

  /** Every required field is a key of the payload. */
  predicate HasRequired(p: Payload) {
    && "email" in p && "secret" in p && "task" in p && "round" in p
    && "nonce" in p && "brief" in p && "evaluation_url" in p
  }

  /** The required fields absent from the payload, in order. */
  function MissingFields(payload: Payload): (r: seq<string>)
    ensures |r| == 0 <==> HasRequired(payload)
  {
    var r := MissingFrom(RequiredFields, payload);
    MissingFieldsEmpty(payload, r);
    r
  }

  lemma {:induction false} MissingFieldsEmpty(payload: Payload, r: seq<string>)
    requires forall f :: f in r <==> f in RequiredFields && f !in payload
    ensures |r| == 0 <==> HasRequired(payload)
  {
    if |r| > 0 {
      var f := r[0];
      assert f in RequiredFields;
      var i :| 0 <= i < |RequiredFields| && RequiredFields[i] == f;
    } else {
      forall i | 0 <= i < |RequiredFields| ensures RequiredFields[i] in payload {
        assert RequiredFields[i] in RequiredFields;
      }
    }
  }

  /** A well-formed email: it has an `@`, and some `.` follows the last `@`. */
  ghost predicate EmailWellFormed(s: string) {
    exists k | 0 <= k < |s| ::
      && s[k] == '@'
      && (forall j | k < j < |s| :: s[j] != '@')
      && (exists j | k < j < |s| :: s[j] == '.')
  }

  /** The email check; `None` when it passes. A list or dict email passes the
      `'@' not in email` test only when it has an `"@"` element or key, and
      then `email.split` raises; any other non-string raises at once. */
  function CheckEmail(email: JValue): (r: Option<Verdict>)
    ensures r.Some? ==> !r.value.Valid?
    ensures email.JStr? ==> (r.None? <==> EmailWellFormed(email.s))
    ensures email.JStr? && r.Some? ==> r.value == Invalid(EmailMessage)
    ensures !email.JStr? ==> r.Some?
  {
    match email
    case JStr(s) =>
      EmailCheckAgrees(s);
      if '@' !in s || '.' !in AfterLast(s, '@') then Some(Invalid(EmailMessage)) else None
    case JList(items) =>
      if JStr("@") !in items then Some(Invalid(EmailMessage))
      else Some(Raises("'list' object has no attribute 'split'"))
    case JObj(fields) =>
      if "@" !in fields then Some(Invalid(EmailMessage))
      else Some(Raises("'dict' object has no attribute 'split'"))
    case _ => Some(Raises("argument of type '" + TypeName(email) + "' is not iterable"))
  }

  /** `'@' in s and '.' in s.split('@')[-1]` is exactly well-formedness. */
  lemma {:induction false} EmailCheckAgrees(s: string)
    ensures ('@' in s && '.' in AfterLast(s, '@')) <==> EmailWellFormed(s)
  {
    if '@' in s && '.' in AfterLast(s, '@') {
      DomainDotWellFormed(s);
    }
    if EmailWellFormed(s) {
      WellFormedDomainDot(s);
    }
  }

  /** The characters after the last `@` are those of `AfterLast`, and that
      `@` exists exactly when `AfterLast` is shorter than `s`. */
  lemma {:induction false} DomainIndex(s: string, j: int)
    requires |s| - |AfterLast(s, '@')| <= j < |s|
    ensures s[j] == AfterLast(s, '@')[j - (|s| - |AfterLast(s, '@')|)]
    ensures s[j] != '@'
  {
    var domain := AfterLast(s, '@');
    assert domain == s[|s| - |domain|..];
  }

  /** Some `@` in `s` means the part after the last one is shorter than `s`. */
  lemma {:induction false} DomainShorter(s: string)
    requires '@' in s
    ensures |AfterLast(s, '@')| < |s|
  {
    var i :| 0 <= i < |s| && s[i] == '@';
    assert i < |s| - |AfterLast(s, '@')|;
  }

  /** The witness that makes `s` well formed. */
  lemma {:induction false} WellFormedAt(s: string, k: nat, d: nat)
    requires k < d < |s| && s[k] == '@' && s[d] == '.'
    requires forall j | k < j < |s| :: s[j] != '@'
    ensures EmailWellFormed(s)
  {
  }

  lemma {:induction false} DomainDotWellFormed(s: string)
    requires '@' in s && '.' in AfterLast(s, '@')
    ensures EmailWellFormed(s)
  {
    var domain := AfterLast(s, '@');
    DomainShorter(s);
    var k := |s| - |domain| - 1;
    var d :| 0 <= d < |domain| && domain[d] == '.';
    DomainIndex(s, k + 1 + d);
    forall j | k < j < |s| ensures s[j] != '@' {
      DomainIndex(s, j);
    }
    WellFormedAt(s, k, k + 1 + d);
  }

  lemma {:induction false} WellFormedDomainDot(s: string)
    requires EmailWellFormed(s)
    ensures '@' in s && '.' in AfterLast(s, '@')
  {
    var domain := AfterLast(s, '@');
    var k := |s| - |domain| - 1;
    var k' :| 0 <= k' < |s| && s[k'] == '@' && (forall j | k' < j < |s| :: s[j] != '@')
      && (exists j | k' < j < |s| :: s[j] == '.');
    assert s[k'] in s;
    if k' > k {
      DomainIndex(s, k');
      assert false;
    }
    if k' < k {
      assert false;
    }
    var j :| k' < j < |s| && s[j] == '.';
    DomainIndex(s, j);
    assert domain[j - k - 1] in domain;
  }

  /** `isinstance(round, int) and round >= 1`; `True` counts as 1. */
  predicate RoundOk(v: JValue) {
    IsPyInt(v) && PyIntValue(v) >= 1
  }

  /** A `str` of positive length. */
  predicate NonEmptyStr(v: JValue) {
    v.JStr? && |v.s| > 0
  }

  /** A `str` starting with `http`; nothing else about the URL is checked. */
  predicate HttpUrl(v: JValue) {
    v.JStr? && StartsWith(v.s, "http")
  }

  /** A dict with both `name` and `url` keys. */
  predicate AttachmentShaped(v: JValue) {
    v.JObj? && "name" in v.fields && "url" in v.fields
  }

  function AttachmentMessage(idx: nat, v: JValue): string {
    if !v.JObj? then "Attachment " + NatToString(idx) + " must be a dictionary"
    else "Attachment " + NatToString(idx) + " must have 'name' and 'url' fields"
  }

  /** The per-element attachment loop, `idx` counting from the list start. */
  function CheckAttachments(items: seq<JValue>, idx: nat): (r: Option<Verdict>)
    ensures r.None? <==> forall i | 0 <= i < |items| :: AttachmentShaped(items[i])
    ensures r.Some? ==> exists k | 0 <= k < |items| ::
      && !AttachmentShaped(items[k])
      && (forall j | 0 <= j < k :: AttachmentShaped(items[j]))
      && r.value == Invalid(AttachmentMessage(idx + k, items[k]))
  {
    if |items| == 0 then None
    else if !AttachmentShaped(items[0]) then Some(Invalid(AttachmentMessage(idx, items[0])))
    else
      var r := CheckAttachments(items[1..], idx + 1);
      CheckAttachmentsStep(items, idx, r);
      r
  }

  /** Lifts the facts about the tail of the list to the whole list. */
  lemma {:induction false} CheckAttachmentsStep(items: seq<JValue>, idx: nat, r: Option<Verdict>)
    requires |items| > 0 && AttachmentShaped(items[0])
    requires r.None? <==> forall i | 0 <= i < |items| - 1 :: AttachmentShaped(items[1..][i])
    requires r.Some? ==> exists k | 0 <= k < |items| - 1 ::
      && !AttachmentShaped(items[1..][k])
      && (forall j | 0 <= j < k :: AttachmentShaped(items[1..][j]))
      && r.value == Invalid(AttachmentMessage(idx + 1 + k, items[1..][k]))
    ensures r.None? <==> forall i | 0 <= i < |items| :: AttachmentShaped(items[i])
    ensures r.Some? ==> exists k | 0 <= k < |items| ::
      && !AttachmentShaped(items[k])
      && (forall j | 0 <= j < k :: AttachmentShaped(items[j]))
      && r.value == Invalid(AttachmentMessage(idx + k, items[k]))
  {
    if r.Some? {
      var k :| 0 <= k < |items| - 1 && !AttachmentShaped(items[1..][k])
        && (forall j | 0 <= j < k :: AttachmentShaped(items[1..][j]))
        && r.value == Invalid(AttachmentMessage(idx + 1 + k, items[1..][k]));
      forall j | 0 <= j < k + 1 ensures AttachmentShaped(items[j]) {
        if j > 0 { assert items[j] == items[1..][j - 1]; }
      }
      assert items[k + 1] == items[1..][k];
      assert idx + (k + 1) == idx + 1 + k;
    } else {
      forall i | 0 <= i < |items| ensures AttachmentShaped(items[i]) {
        if i > 0 { assert items[i] == items[1..][i - 1]; }
      }
    }
  }

  /** The type and format checks on the required fields all pass. */
  ghost predicate RequiredValuesOk(p: Payload)
    requires HasRequired(p)
  {
    && p["email"].JStr? && EmailWellFormed(p["email"].s)
    && RoundOk(p["round"])
    && NonEmptyStr(p["task"])
    && NonEmptyStr(p["nonce"])
    && NonEmptyStr(p["brief"])
    && HttpUrl(p["evaluation_url"])
  }

  /** `checks` and `attachments`, when present, have the right shape. */
  predicate OptionalFieldsOk(p: Payload) {
    && ("checks" in p ==> p["checks"].JList?)
    && ("attachments" in p ==>
          && p["attachments"].JList?
          && forall i | 0 <= i < |p["attachments"].items| :: AttachmentShaped(p["attachments"].items[i]))
  }

  /** Every check `validate_request` makes, stated as one conjunction. */
  ghost predicate WellFormed(p: Payload) {
    && HasRequired(p)
    && RequiredValuesOk(p)
    && OptionalFieldsOk(p)
  }

  /** The checks on email, round, task, nonce, brief and evaluation_url, in
      that order; `None` when all pass. */
  function CheckRequiredValues(p: Payload): (r: Option<Verdict>)
    requires HasRequired(p)
    ensures r.None? <==> RequiredValuesOk(p)
    ensures r.Some? ==> !r.value.Valid?
    ensures r.Some? && r.value.Raises? ==> !p["email"].JStr?
  {
    var email := CheckEmail(p["email"]);
    if email.Some? then email
    else if !RoundOk(p["round"]) then Some(Invalid(RoundMessage))
    else if !NonEmptyStr(p["task"]) then Some(Invalid(TaskMessage))
    else if !NonEmptyStr(p["nonce"]) then Some(Invalid(NonceMessage))
    else if !NonEmptyStr(p["brief"]) then Some(Invalid(BriefMessage))
    else if !HttpUrl(p["evaluation_url"]) then Some(Invalid(UrlMessage))
    else None
  }

  /** The checks on the optional `checks` and `attachments`; `None` when both
      pass. */
  function CheckOptionalFields(p: Payload): (r: Option<Verdict>)
    ensures r.None? <==> OptionalFieldsOk(p)
    ensures r.Some? ==> r.value.Invalid?
    ensures "checks" in p && !p["checks"].JList? ==> r == Some(Invalid(ChecksMessage))
    ensures ("checks" in p ==> p["checks"].JList?) && "attachments" in p && !p["attachments"].JList?
      ==> r == Some(Invalid(AttachmentsMessage))
  {
    if "checks" in p && !p["checks"].JList? then Some(Invalid(ChecksMessage))
    else if "attachments" in p && !p["attachments"].JList? then Some(Invalid(AttachmentsMessage))
    else if "attachments" in p then CheckAttachments(p["attachments"].items, 0)
    else None
  }

  /** `validate_request`. */
  function ValidateRequest(p: Payload): (r: Verdict)
    ensures |MissingFields(p)| > 0 ==> r == Invalid(MissingPrefix + Join(", ", MissingFields(p)))
    ensures r == Valid <==> WellFormed(p)
    ensures r.Raises? ==> "email" in p && !p["email"].JStr?
  {
    var missing := MissingFields(p);
    if |missing| > 0 then Invalid(MissingPrefix + Join(", ", missing))
    else
      var required := CheckRequiredValues(p);
      if required.Some? then required.value
      else
        var optional := CheckOptionalFields(p);
        if optional.Some? then optional.value else Valid
  }

  /** The "missing" message names every absent required field. */
  lemma {:induction false} MissingMessageNamesEach(p: Payload, f: string)
    requires f in RequiredFields && f !in p
    ensures ValidateRequest(p).Invalid?
    ensures Contains(ValidateRequest(p).message, f)
  {
    var missing := MissingFields(p);
    var k :| 0 <= k < |missing| && missing[k] == f;
    JoinContainsParts(", ", missing, k);
    ContainsInfix(MissingPrefix, Join(", ", missing), [], f);
    assert MissingPrefix + Join(", ", missing) + [] == ValidateRequest(p).message;
  }

  /** With every field present, a later check never overrides an earlier
      one: email, round, `task`, `nonce`, `brief`, `evaluation_url`, then
      the optional `checks` and `attachments`, in that order. */
  lemma {:induction false} EarlierCheckDecides(p: Payload)
    requires |MissingFields(p)| == 0
    ensures p["email"].JStr? && !EmailWellFormed(p["email"].s)
      ==> ValidateRequest(p) == Invalid(EmailMessage)
    ensures CheckEmail(p["email"]).None? && !RoundOk(p["round"])
      ==> ValidateRequest(p) == Invalid(RoundMessage)
    ensures CheckEmail(p["email"]).None? && RoundOk(p["round"]) && !NonEmptyStr(p["task"])
      ==> ValidateRequest(p) == Invalid(TaskMessage)
    ensures CheckEmail(p["email"]).None? && RoundOk(p["round"]) && NonEmptyStr(p["task"])
        && !NonEmptyStr(p["nonce"])
      ==> ValidateRequest(p) == Invalid(NonceMessage)
    ensures CheckEmail(p["email"]).None? && RoundOk(p["round"]) && NonEmptyStr(p["task"])
        && NonEmptyStr(p["nonce"]) && !NonEmptyStr(p["brief"])
      ==> ValidateRequest(p) == Invalid(BriefMessage)
    ensures CheckEmail(p["email"]).None? && RoundOk(p["round"]) && NonEmptyStr(p["task"])
        && NonEmptyStr(p["nonce"]) && NonEmptyStr(p["brief"]) && !HttpUrl(p["evaluation_url"])
      ==> ValidateRequest(p) == Invalid(UrlMessage)
    ensures RequiredValuesOk(p) && "checks" in p && !p["checks"].JList?
      ==> ValidateRequest(p) == Invalid(ChecksMessage)
    ensures RequiredValuesOk(p) && ("checks" in p ==> p["checks"].JList?)
        && "attachments" in p && !p["attachments"].JList?
      ==> ValidateRequest(p) == Invalid(AttachmentsMessage)
  {
  }

  /** `verify_secret`: an unconfigured (empty) expected secret denies every
      request; otherwise the provided value must be that exact string. */
  function VerifySecret(provided: JValue, expected: string): (r: bool)
    ensures r <==> expected != "" && provided == JStr(expected)
  {
    if expected == "" then false
    else provided == JStr(expected)
  }

  /** No provided value, not even `""`, passes an unconfigured secret. */
  lemma {:induction false} UnconfiguredSecretDenies(provided: JValue)
    ensures !VerifySecret(provided, "")
  {
  }
}
